=== FILE: README.md ===
# Task list date logic and authentication forms, in Dafny

This project models the logic core of a React Native task manager:

- **`utils/dateFilters.ts`**
  - `filterTasksByDate` puts tasks in calendar buckets: today, tomorrow, this week, this month, overdue and completed.
  - `sortTasksByDate` sorts tasks with overdue ones first, then by due instant.
  - `getTaskDateInfo` computes the badge shown next to a task: the flags, the day distance and the French display text.
- **`app/register.tsx`**: the registration form's `validateForm`, `updateField`, and the guard at the top of `handleRegister`.
- **`app/login.tsx`**: the same three pieces for the login form.

The program relies on JavaScript `Date` arithmetic. The model writes the parts it uses as functions on integer time values:
- `new Date(y, m, d)`, where years 0..99 mean 1900..1999;
- `getFullYear`, `getMonth`, `getDate` and `getDay`;
- `setDate`, where the date carries into neighbouring months and years;
- `<` on Dates, which is false when either side is an Invalid Date.

These follow the date algebra of ECMA-262 (section 21.4.1), with the local time zone offset taken as zero. The clock reading `now` is a parameter. A task's `dueDate` is the already-parsed time value, or `None` when the string is missing or does not parse. In that case the source's Date is Invalid, and every comparison with it is false.

Modules, one per concept:

| module | file | what it holds |
|---|---|---|
| `Wrappers` | `wrappers.dfy` | `Option` |
| `JsDate` | `js_date.dfy` | time values, day numbers, the Gregorian calendar, `new Date(y, m, d)`, `setDate` |
| `JsString` | `js_string.dfy` | `trim`, blankness, the e-mail pattern and a matcher for it, UTF-16 length, `${n}` |
| `CalendarAnchors` | `anchors.dfy` | the six reference instants `filterTasksByDate` computes first |
| `DateFilters` | `date_filters.dfy` | tasks, filter types, the bucket predicates, `Array.prototype.filter`, `filterTasksByDate` |
| `Buckets` | `buckets.dfy` | what each bucket contains, stated on calendar days |
| `TaskSort` | `task_sort.dfy` | the comparator, a stable sort, `sortTasksByDate` |
| `DateInfo` | `date_info.dfy` | `getTaskDateInfo` and reading its badge text back |
| `FormErrors` | `form_errors.dfy` | the per-field error record both screens keep |
| `RegisterForm` | `register_form.dfy` | the registration screen |
| `LoginForm` | `login_form.dfy` | the login screen |

Behaviour of the code as written, which the model keeps and proves:
- **Week and month buckets compare instants, not days.**
  - `thisWeek` and `thisMonth` compare the full due instant with the midnight that starts the last day.
  - So a task due on this week's Saturday after midnight is not in `thisWeek`, although on that Saturday it is in `today`.
  - Likewise, a task due on the month's last day after midnight is not in `thisMonth`.
- **Years 1..99 are read as 1901..1999.** `new Date(y, m, d)` maps years 0..99 to 1900..1999. A task due in year 24 therefore appears in `today` on the same date of 1924.
- **Badge range for finished tasks.** The badge branch for "Dans N jour(s)" tests only `daysDifference <= 7`, with no lower bound. A finished task that was due in the past is not overdue, so it shows "Dans -1 jour".

## Model

| member | source | states |
|---|---|---|
| `DateFilters.DueTime` | utils/dateFilters.ts:26 | `new Date(task.dueDate)` is a valid Date exactly when the due date is present |
| `DateFilters.InBucket` | utils/dateFilters.ts:21-57 | the callbacks of the switch, comparing possibly Invalid Dates with `===`, `>=`, `<=` and `<`; what each one accepts, in calendar days, is stated by `Buckets.TodayBucket` through `Buckets.OverdueBucket`, `Buckets.MissingDueInNoDatedBucket` and `Buckets.CompletedInNoDatedBucket` |
| `DateFilters.IsLate` | utils/dateFilters.ts:50-54 | a task is late when its due Date is before today's midnight and it is unfinished, the test the `overdue` callback and the comparator (lines 73-74) share; `Buckets.OverdueBucket` states it as a due day before today |
| `DateFilters.FilterWith` | utils/dateFilters.ts:20-61 | the switch on the filter type: `all` returns the tasks themselves; every other case returns an order-preserving subsequence holding each task as often as in the input when its callback accepts it, and not at all otherwise |
| `DateFilters.Keep` | utils/dateFilters.ts:25-57 | `Array.prototype.filter`: every kept element passes the test, each element is kept as often as it occurs when it passes and not at all otherwise, and the kept elements keep their input order |
| `DateFilters.FilterTasksByDate` | utils/dateFilters.ts:5-62 | `all` returns the input unchanged; every filter returns an order-preserving subsequence in which each task occurs as often as in the input when it is in the bucket, and not at all otherwise |
| `CalendarAnchors.AnchorsAt` | utils/dateFilters.ts:6-18 | the six anchors as the source computes them from `now`; `CalendarAnchors.AnchorsMeaning` states them as midnights of calendar days |
| `CalendarAnchors.TodayAnchor` | utils/dateFilters.ts:6-7 | `today` is the midnight starting the day of `now` |
| `CalendarAnchors.TomorrowAnchor` | utils/dateFilters.ts:8-9 | `tomorrow` is the next midnight, also across month and year ends |
| `CalendarAnchors.WeekStartAnchor` | utils/dateFilters.ts:11-12 | `startOfWeek` is the midnight of day `d - WeekDay(d)`, the Sunday on or before today |
| `CalendarAnchors.WeekEndAnchor` | utils/dateFilters.ts:14-15 | `endOfWeek` is the midnight six days after that Sunday, which starts the Saturday |
| `CalendarAnchors.MonthAnchors` | utils/dateFilters.ts:17-18 | `startOfMonth` and `endOfMonth` are the midnights of the first and the last day of today's month |
| `CalendarAnchors.SundayOnOrBefore` | utils/dateFilters.ts:12 | the week start is a Sunday, between zero and six days before today |
| `CalendarAnchors.WithinMonth` | utils/dateFilters.ts:17-18 | today's day lies between the month's first and last day |
| `CalendarAnchors.MonthEnds` | utils/dateFilters.ts:17-18 | the first and last day of the month read back as dates 1 and n (28 to 31) of today's year and month |
| `CalendarAnchors.AnchorsMeaning` | utils/dateFilters.ts:6-18 | all six anchors at once, as midnights of calendar days fixed by the day of `now` |
| `Buckets.TodayBucket` | utils/dateFilters.ts:24-29 | a task is in `today` iff it has a due date on the day of `now` and is not completed |
| `Buckets.TomorrowBucket` | utils/dateFilters.ts:31-36 | a task is in `tomorrow` iff it is due on the next day and is not completed |
| `Buckets.ThisWeekBucket` | utils/dateFilters.ts:38-42 | a task is in `thisWeek` iff its due instant lies between the midnights starting the week's Sunday and Saturday, inclusive, and it is not completed |
| `Buckets.ThisMonthBucket` | utils/dateFilters.ts:44-48 | a task is in `thisMonth` iff its due instant lies between the midnights starting the month's first and last day, inclusive, and it is not completed |
| `Buckets.OverdueBucket` | utils/dateFilters.ts:50-54 | a task is in `overdue` iff it is due before today's midnight, equivalently on an earlier day, and is not completed |
| `Buckets.MissingDueInNoDatedBucket` | utils/dateFilters.ts:24-54 | a task without a due date is in no dated bucket, because every comparison with an Invalid Date is false |
| `Buckets.CompletedInNoDatedBucket` | utils/dateFilters.ts:20-57 | a completed task is in `all` and `completed` and in no other bucket |
| `Buckets.FilterMembership` | utils/dateFilters.ts:20-61 | a task is in a filter's result iff it is in the input and in the bucket |
| `Buckets.CompletedFilter` | utils/dateFilters.ts:56-57 | `completed` returns exactly the completed tasks, each as often as in the input, with or without a due date |
| `Buckets.DatedFiltersDropCompleted` | utils/dateFilters.ts:24-54 | no dated filter returns a completed task |
| `Buckets.TodayFilter` | utils/dateFilters.ts:24-29 | the `today` result is an order-preserving subsequence that holds exactly the unfinished tasks due on the day of `now` |
| `Buckets.OverdueFilter` | utils/dateFilters.ts:50-54 | the `overdue` result is an order-preserving subsequence that holds exactly the unfinished tasks due on an earlier day |
| `Buckets.LateSaturdayNotThisWeek` | utils/dateFilters.ts:14-42 | a task due on this week's Saturday after midnight is not in `thisWeek` |
| `Buckets.SaturdayTodayNotThisWeek` | utils/dateFilters.ts:11-42 | on a Saturday, an unfinished task due later that day is in `today` but not in `thisWeek` |
| `Buckets.LateLastDayNotThisMonth` | utils/dateFilters.ts:17-48 | a task due on the month's last day after midnight is not in `thisMonth` |
| `Buckets.EarlyYearLandsInTwentiethCentury` | utils/dateFilters.ts:24-29 | a task due on a date of year 1..99 is in `today` on the same date 1900 years later |
| `TaskSort.Compare` | utils/dateFilters.ts:65-81 | the comparator is at most 0 iff `a` may precede `b` (overdue first, then earlier due), and is 0 iff both have the same lateness and due instant |
| `TaskSort.CompareConsistent` | utils/dateFilters.ts:65-81 | swapping the arguments flips the sign, and "not after" is transitive, as a consistent comparator must be |
| `TaskSort.SortBy` | utils/dateFilters.ts:65 | `Array.prototype.sort` with the comparator, on dated tasks: the result has the same multiset of tasks and is sorted; `TaskSort.SortStable` and `TaskSort.SortIsUnique` fix which arrangement it is |
| `TaskSort.SortTasksByDate` | utils/dateFilters.ts:64-82 | the result is a permutation of the input and is sorted by the comparator |
| `TaskSort.SortStable` | utils/dateFilters.ts:64-82 | tasks that compare equal keep their input order |
| `TaskSort.OverdueFirst` | utils/dateFilters.ts:73-77 | every overdue task comes before every task that is not overdue |
| `TaskSort.AscendingWithinGroup` | utils/dateFilters.ts:79-80 | within the overdue tasks, and within the others, due instants ascend |
| `TaskSort.SortIdempotent` | utils/dateFilters.ts:64-82 | sorting a sorted result changes nothing |
| `TaskSort.SortOfSorted` | utils/dateFilters.ts:64-82 | a sequence already in comparator order is its own sort |
| `TaskSort.SortIsUnique` | utils/dateFilters.ts:64-82 | any sorted sequence whose ties appear in input order is the sort's result, which pins the sort down independently of insertion sort |
| `TaskSort.InsertSorted` | utils/dateFilters.ts:65 | inserting into a sorted sequence keeps it sorted |
| `TaskSort.InsertTies` | utils/dateFilters.ts:65 | insertion keeps every group of ties in order and puts the new task first in its group |
| `DateInfo.Badge` | utils/dateFilters.ts:103-116 | the `displayText` chain; `DateInfo.BadgeReadsBack`, `DateInfo.FarBadgeIsDate`, `DateInfo.LabelPriority` and `DateInfo.CompletedPastBadge` state what it shows |
| `DateInfo.CeilDays` | utils/dateFilters.ts:97 | `Math.ceil(ms / 86400000)` is the `n` with `(n - 1) * 86400000 < ms <= n * 86400000` |
| `DateInfo.CeilDaysOfDayStart` | utils/dateFilters.ts:96-97 | the distance between two midnights rounds to their exact day difference |
| `DateInfo.InfoFrom` | utils/dateFilters.ts:91-124 | `daysDifference` is absent exactly when the due date is; the three flags exclude each other; only an unfinished task is overdue |
| `DateInfo.GetTaskDateInfo` | utils/dateFilters.ts:84-125 | without a due date the record is all false, with NaN distance and "Invalid Date" as text |
| `DateInfo.DaysDifferenceIsDayGap` | utils/dateFilters.ts:91-97 | `daysDifference` is the number of calendar days from today to the due day |
| `DateInfo.LabelPriority` | utils/dateFilters.ts:99-113 | overdue iff negative distance on an unfinished task; today iff 0; tomorrow iff 1; each flag selects its text, and the delay wins over the rest |
| `DateInfo.BadgeReadsBack` | utils/dateFilters.ts:103-113 | for a distance up to 7 the badge text reads back as the signed distance: "Aujourd'hui", "Demain", "En retard de N jour(s)", "Dans N jour(s)" |
| `DateInfo.FarBadgeIsDate` | utils/dateFilters.ts:114-116 | past seven days ahead the text is the formatted due date |
| `DateInfo.DayCountPlural` | utils/dateFilters.ts:107 | the count ends in "s" exactly when it is above 1 |
| `DateInfo.CompletedPastBadge` | utils/dateFilters.ts:99-113 | a finished task due in the past shows "Dans -N jour", with a negative, singular count |
| `DateInfo.BadgeExamples` | utils/dateFilters.ts:105-113 | concrete texts: "En retard de 2 jours", "En retard de 1 jour", "Dans 3 jours", "Dans -1 jour" |
| `DateInfo.FlagsMatchBuckets` | utils/dateFilters.ts:99-101 | `isOverdue` agrees with the `overdue` bucket; `isToday` and `isTomorrow`, on an unfinished task, agree with `today` and `tomorrow` |
| `JsDate.WeekDay` | utils/dateFilters.ts:12 | `getDay()`: a number 0..6 that steps with the day number modulo 7, with 4 (Thursday) for 1970-01-01 |
| `JsDate.FullYear` | utils/dateFilters.ts:7 | the year `new Date(y, m, d)` uses is never 0..99: a two-digit year keeps its last two digits and lands in 1900..1999, any other year is kept |
| `JsDate.NewDate` | utils/dateFilters.ts:17-18 | `new Date(y, m, d)`, the midnight of the carried date; `JsDate.MidnightOfCivil`, `JsDate.MakeDayMonthEnd` and `CalendarAnchors.MonthAnchors` state which day it is |
| `JsDate.Midnight` | utils/dateFilters.ts:7 | `new Date(d.getFullYear(), d.getMonth(), d.getDate())` is valid iff `d` is |
| `JsDate.OutsideEarlyYearsIff` | utils/dateFilters.ts:7 | a day lies before year 0 or from year 100 on exactly when its year is not one of 0..99, the years `new Date(y, m, d)` reads as 1900..1999 |
| `JsDate.MidnightIsDayStart` | utils/dateFilters.ts:27 | outside years 0..99 that Date is the midnight starting the day |
| `JsDate.MidnightOfEarlyYear` | utils/dateFilters.ts:27 | in years 0..99 that Date lies after the instant itself |
| `JsDate.SetDate` | utils/dateFilters.ts:9 | `setDate(dt)`, with the date carried into neighbouring months; `JsDate.SetDateShift` states it as a shift by whole days |
| `JsDate.SetDateShift` | utils/dateFilters.ts:9 | `setDate(dt)` moves the Date by `dt - getDate()` whole days, keeping the time of day |
| `JsDate.CivilOfMakeDay` | utils/dateFilters.ts:17 | a valid year, month and date turned into a day and read back give themselves |
| `JsDate.MakeDayOfCivil` | utils/dateFilters.ts:7 | a day's year, month and date turned back into a day give the day |
| `JsDate.MakeDayMonthEnd` | utils/dateFilters.ts:18 | date 0 of the next month is the last date of this month, also for December |
| `JsDate.YearOfDayUnique` | utils/dateFilters.ts:7 | `getFullYear` gives the only year whose days contain the instant |
| `JsDate.DayFromYearStep` | utils/dateFilters.ts:7 | consecutive years start 365 or 366 days apart, as the leap year rule says |
| `JsString.Trim` | app/register.tsx:32 | `trim()` returns a slice that neither starts nor ends with white space, and only white space was cut off on either side |
| `JsString.BlankIffAllSpace` | app/register.tsx:32 | `!s.trim()` holds exactly when every character is white space |
| `JsString.MatchEmail` | app/register.tsx:42 | the matcher returns true iff `/\S+@\S+\.\S+/` occurs somewhere in the string |
| `JsString.EmailIsNotBlank` | app/register.tsx:40-43 | a string that matches the pattern is not blank |
| `JsString.Utf16Length` | app/register.tsx:48 | `length` counts UTF-16 code units: one or two per character, so between the number of characters and twice that, and 0 only for the empty string |
| `JsString.Utf16LengthOfBmp` | app/register.tsx:48 | for text inside the Basic Multilingual Plane, `length` is the number of characters |
| `JsString.Utf16LengthOfAstral` | app/register.tsx:48 | for text of characters above U+FFFF, `length` is twice the number of characters |
| `JsString.Utf16LengthAppend` | app/register.tsx:48 | the `length` of a concatenation is the sum of the lengths of its parts |
| `JsString.IntToString` | utils/dateFilters.ts:107 | `${n}`: a non-empty text that starts with a minus sign exactly when `n` is negative; `JsString.IntToStringRoundTrip` reads it back as `n` |
| `JsString.IntToStringRoundTrip` | utils/dateFilters.ts:107 | the text `${n}` of an integer reads back as `n` |
| `FormErrors.Note` | app/register.tsx:30-50 | recording a message changes only its field's entry, and with no message the record is left as it was |
| `FormErrors.ClearError` | app/register.tsx:80-82 | clearing a field drops its message exactly when the message is truthy; a falsy message and every other field stay as they were |
| `FormErrors.ClearTruthy` | app/register.tsx:80-82 | on truthy messages, clearing removes the field and keeps the rest truthy |
| `FormErrors.ClearIdempotent` | app/login.tsx:65-67 | clearing a field twice is clearing it once |
| `RegisterForm.Check` | app/register.tsx:32-50 | the four if-chains of `validateForm`; `RegisterForm.FieldAccepted` states when each passes and `RegisterForm.ValidateMessages` which message each gives |
| `RegisterForm.ValidateForm` | app/register.tsx:29-51 | a field has a message iff its own check fails, the message is that check's, and every message is non-empty |
| `RegisterForm.ValidIffAcceptable` | app/register.tsx:29-53 | the form is valid iff the username and name have a non-space character, the e-mail matches the pattern, and the password has at least 6 code units |
| `RegisterForm.FieldAccepted` | app/register.tsx:32-50 | each field's check passes iff its part of that condition holds |
| `RegisterForm.EmptyIffNoField` | app/register.tsx:53 | the error record is empty iff none of the four fields has a message |
| `RegisterForm.ValidateMessages` | app/register.tsx:32-50 | the message of each field: 'Nom d'utilisateur requis' and 'Nom complet requis' when blank, 'Email requis' when blank and 'Email invalide' when the pattern is missing, 'Mot de passe requis' when empty and the too-short message under 6 code units |
| `RegisterForm.ErrorsArePerField` | app/register.tsx:29-51 | changing one field leaves every other field's message unchanged |
| `RegisterForm.SixSpacesPassword` | app/register.tsx:46-50 | the password is not trimmed: six spaces pass |
| `RegisterForm.EmptyFormErrors` | app/register.tsx:19-51 | the initial empty form gets the four "required" messages |
| `RegisterForm.EmojiPasswords` | app/register.tsx:46-50 | `length` counts code units: a password of three emoji above U+FFFF passes, one of two emoji is too short |
| `RegisterForm.EmailPatternExamples` | app/register.tsx:42 | the unanchored pattern accepts "a@b.co" and " a@b.co ", and rejects "a@b" and "a@.co" |
| `RegisterForm.CheckEmail` | app/register.tsx:40-44 | the e-mail check, run with the matcher, gives no message iff the address matches the pattern |
| `RegisterForm.Validate` | app/register.tsx:29-53 | `validateForm`, run with the matcher: it returns true iff the form is acceptable iff no field has a message, and its record is exactly the per-field messages of `RegisterForm.ValidateForm` |
| `RegisterForm.UpdateField` | app/register.tsx:78-83 | `updateField` sets only its field and clears only that field's message; truthy messages stay truthy |
| `RegisterForm.UpdateFieldIdempotent` | app/register.tsx:78-83 | typing the same value twice is typing it once |
| `RegisterForm.HandleRegister` | app/register.tsx:56-61 | `apiService.register` receives the form iff the form is acceptable; otherwise nothing is sent; on both paths the screen shows exactly the messages of `validateForm` |
| `RegisterForm.ScreenStaysTruthy` | app/register.tsx:25-83 | the messages the screen holds are truthy from the initial empty state on, and `updateField` and `handleRegister` keep them so |
| `LoginForm.Check` | app/login.tsx:30-37 | every message the login checks produce is non-empty |
| `LoginForm.ValidateForm` | app/login.tsx:27-38 | a field has a message iff its own check fails, the message is that check's, and every message is non-empty |
| `LoginForm.ValidIffAcceptable` | app/login.tsx:27-40 | the form is valid iff the identifier has a non-space character and the password is not empty |
| `LoginForm.ValidateMessages` | app/login.tsx:30-37 | "Email ou username requis" iff the identifier is blank; "Mot de passe requis" iff the password is empty |
| `LoginForm.EmptyFormErrors` | app/login.tsx:19-38 | the initial empty form gets both "required" messages |
| `LoginForm.NoFormatCheck` | app/login.tsx:30-33 | the identifier has no format check: "admin" and "a@b" pass, and so does a one-space password |
| `LoginForm.ErrorsArePerField` | app/login.tsx:27-38 | changing one field leaves the other field's message unchanged |
| `LoginForm.UpdateField` | app/login.tsx:63-68 | `updateField` sets only its field and clears only that field's message; truthy messages stay truthy |
| `LoginForm.UpdateFieldIdempotent` | app/login.tsx:63-68 | typing the same value twice is typing it once |
| `LoginForm.HandleLogin` | app/login.tsx:43-49 | `apiService.login` receives the untrimmed identifier and password iff the form is acceptable, otherwise nothing is sent; on both paths the screen shows exactly the messages of `validateForm` |

## Left out

- Time zones and daylight saving time: the local offset is zero, so local and UTC calendar fields coincide.
- Parsing of `task.dueDate` strings and the time-value range limit of `TimeClip`: a due date is an already-parsed integer time value, or `None` for a missing or unparsable one.
- Floating-point arithmetic: time values are whole milliseconds, and `Math.ceil(timeDiff / 86400000)` is computed exactly on integers.
- `toLocaleDateString('fr-FR')` for a valid date is the parameter `formatDate`. For an Invalid Date the text is the ECMA-402 "Invalid Date".
- React state, rendering, `Alert`, the loading flag, navigation, and the asynchronous `apiService` and `saveToken`/`saveUser` calls. The submission functions stop at the request they would send.
- `apiService`, `saveToken` and the rest of `utils/api.ts` and `utils/auth.ts` are not part of this model.
- An error reset to `undefined` is modelled as a missing key. The screens read the `errors` state only through `errors[field]` (app/register.tsx:80 and :104-129, app/login.tsx:65 and :89-98), which gives `undefined` for both. `Object.keys` is applied only to the fresh `newErrors` record of `validateForm` (app/register.tsx:53, app/login.tsx:40), which never holds an `undefined` entry.
- TaskSort.SortTasksByDate: requires every task to have a due date.
  - Without one, the comparator returns NaN (read as 0) for some pairs and a number for others.
  - That comparator is not consistent, and ECMA-262 leaves the sort order implementation-defined in that case.
- TaskSort.SortTasksByDate: the source reads the clock inside the comparator, once per comparison. The model reads it once for the whole sort.
- CalendarAnchors.AnchorsMeaning: requires that the year of `now` is not 0..99. In those years `new Date(y, m, d)` jumps 1900 years ahead, and the anchors are no longer today's calendar days. The same condition is on TodayAnchor, TomorrowAnchor, WeekStartAnchor, WeekEndAnchor and MonthAnchors.
- Buckets.TodayBucket: requires that neither the due date's year nor the year of `now` is 0..99. Buckets.EarlyYearLandsInTwentiethCentury states what happens otherwise. The same applies to Buckets.TomorrowBucket and Buckets.TodayFilter.
- Buckets.OverdueBucket: requires that the year of `now` is not 0..99. The same applies to Buckets.ThisWeekBucket, Buckets.ThisMonthBucket, Buckets.OverdueFilter, Buckets.LateSaturdayNotThisWeek and Buckets.LateLastDayNotThisMonth.
- DateInfo.DaysDifferenceIsDayGap: requires that neither year is 0..99, for the same reason.
- DateInfo.FlagsMatchBuckets: requires that neither year is 0..99, for the same reason.
- DateInfo.BadgeReadsBack: covers distances up to 7. Past that the text is whatever `formatDate` prints (DateInfo.FarBadgeIsDate).

=== FILE: anchors.dfy ===
/**
 * The calendar anchors `filterTasksByDate` (utils/dateFilters.ts) computes
 * from the clock before it looks at any task: today's midnight, tomorrow,
 * the bounds of the Sunday-based week and of the month.
 */
module CalendarAnchors {
  import opened JsDate

  /** The reference instants of one classification, all local midnights. */
  datatype Anchors = Anchors(
    today: int,
    tomorrow: int,
    startOfWeek: int,
    endOfWeek: int,
    startOfMonth: int,
    endOfMonth: int)

  /** `new Date(now.getFullYear(), now.getMonth(), now.getDate())`. */
  function TodayAt(now: int): int {
    Midnight(Valid(now)).ms
  }

  /** The anchors as the source derives them, one Date operation at a time. */
  function AnchorsAt(now: int): Anchors {
    var today := TodayAt(now);
    var startOfWeek := WeekStartFrom(today);
    Anchors(today, TomorrowFrom(today), startOfWeek, WeekEndFrom(startOfWeek),
            MonthStartFrom(today), MonthEndFrom(today))
  }

  /** `tomorrow.setDate(tomorrow.getDate() + 1)` on a copy of `today`. */
  function TomorrowFrom(today: int): int {
    SetDate(today, DateOf(today) + 1)
  }

  /** `startOfWeek.setDate(today.getDate() - today.getDay())` on a copy of `today`. */
  function WeekStartFrom(today: int): int {
    SetDate(today, DateOf(today) - DayOfWeek(today))
  }

  /** `endOfWeek.setDate(startOfWeek.getDate() + 6)` on a copy of `startOfWeek`. */
  function WeekEndFrom(startOfWeek: int): int {
    SetDate(startOfWeek, DateOf(startOfWeek) + 6)
  }

  /** `new Date(today.getFullYear(), today.getMonth(), 1)`. */
  function MonthStartFrom(today: int): int {
    var c := CivilOfDay(Day(today));
    NewDate(c.year, c.month, 1)
  }

  /** `new Date(today.getFullYear(), today.getMonth() + 1, 0)`. */
  function MonthEndFrom(today: int): int {
    var c := CivilOfDay(Day(today));
    NewDate(c.year, c.month + 1, 0)
  }

  /** The year of `now` is read literally by `new Date(y, m, d)` (it is not in 0..99). */
  predicate LiteralYear(t: int) {
    OutsideEarlyYears(Day(t))
  }

  /** `today` is the midnight starting the day of `now`. */
  lemma TodayAnchor(now: int)
    requires LiteralYear(now)
    ensures TodayAt(now) == DayStart(Day(now))
  {
    MidnightIsDayStart(now);
  }

  /** `tomorrow` is the next midnight. */
  lemma TomorrowAnchor(now: int)
    requires LiteralYear(now)
    ensures TomorrowFrom(TodayAt(now)) == DayStart(Day(now) + 1)
  {
    TodayAnchor(now);
    TomorrowOfMidnight(TodayAt(now), Day(now));
  }

  /** The week starts at the midnight of the Sunday on or before today. */
  lemma WeekStartAnchor(now: int)
    requires LiteralYear(now)
    ensures WeekStartFrom(TodayAt(now)) == DayStart(Day(now) - WeekDay(Day(now)))
  {
    TodayAnchor(now);
    WeekStartOfMidnight(TodayAt(now), Day(now));
  }

  /** The week ends at the midnight starting the Saturday after that Sunday. */
  lemma WeekEndAnchor(now: int)
    requires LiteralYear(now)
    ensures WeekEndFrom(WeekStartFrom(TodayAt(now))) == DayStart(Day(now) - WeekDay(Day(now)) + 6)
  {
    WeekStartAnchor(now);
    WeekEndOfMidnight(WeekStartFrom(TodayAt(now)), Day(now) - WeekDay(Day(now)));
  }

  /** The month anchors are the midnights of the first and the last day of today's month. */
  lemma MonthAnchors(now: int)
    requires LiteralYear(now)
    ensures MonthStartFrom(TodayAt(now)) == DayStart(FirstOfMonth(Day(now)))
    ensures MonthEndFrom(TodayAt(now)) == DayStart(LastOfMonth(Day(now)))
  {
    TodayAnchor(now);
    MonthStartOfMidnight(TodayAt(now), Day(now));
    MonthEndOfMidnight(TodayAt(now), Day(now));
  }

  /** Day `d - WeekDay(d)` is a Sunday, at most six days before `d`. */
  lemma SundayOnOrBefore(d: int)
    ensures WeekDay(d - WeekDay(d)) == 0
    ensures d - 6 <= d - WeekDay(d) <= d
  {
  }

  /**
   * What the anchors are: today's midnight, the next midnight, the Sunday on
   * or before today and the Saturday after it, and the first and last day
   * of today's month, all at midnight.
   */
  lemma AnchorsMeaning(now: int)
    requires LiteralYear(now)
    ensures AnchoredAt(AnchorsAt(now), Day(now))
  {
    TodayAnchor(now);
    TomorrowAnchor(now);
    WeekStartAnchor(now);
    WeekEndAnchor(now);
    MonthAnchors(now);
  }

  lemma TomorrowOfMidnight(t: int, d: int)
    requires t == DayStart(d)
    ensures TomorrowFrom(t) == DayStart(d + 1)
  {
    ShiftMidnight(t, d, 1);
  }

  lemma WeekStartOfMidnight(t: int, d: int)
    requires t == DayStart(d)
    ensures WeekStartFrom(t) == DayStart(d - WeekDay(d))
  {
    DayOfDayStart(d, 0);
    assert DayOfWeek(t) == WeekDay(d);
    ShiftMidnight(t, d, -WeekDay(d));
  }

  lemma WeekEndOfMidnight(t: int, d: int)
    requires t == DayStart(d)
    ensures WeekEndFrom(t) == DayStart(d + 6)
  {
    ShiftMidnight(t, d, 6);
  }

  /** `setDate(getDate() + k)` on a midnight moves it `k` days. */
  lemma ShiftMidnight(t: int, d: int, k: int)
    requires t == DayStart(d)
    ensures SetDate(t, DateOf(t) + k) == DayStart(d + k)
  {
    SetDateShift(t, DateOf(t) + k);
  }

  /** The day number of the first day of the month holding `day`. */
  function FirstOfMonth(day: int): int {
    var c := CivilOfDay(day);
    MakeDay(c.year, c.month, 1)
  }

  /** The day number of the last day of the month holding `day`. */
  function LastOfMonth(day: int): int {
    var c := CivilOfDay(day);
    MakeDay(c.year, c.month, DaysInMonth(c.month, IsLeapYear(c.year)))
  }

  /**
   * `new Date(y, m, 1)` and `new Date(y, m + 1, 0)` for today's year and month
   * are the first and last day of that month, and today lies between them.
   */
  lemma MonthStartOfMidnight(t: int, day: int)
    requires t == DayStart(day)
    requires OutsideEarlyYears(day)
    ensures MonthStartFrom(t) == DayStart(FirstOfMonth(day))
  {
    OutsideEarlyYearsIff(day);
    DayOfDayStart(day, 0);
    assert Day(t) == day;
    var c := CivilOfDay(day);
    assert MonthStartFrom(t) == NewDate(c.year, c.month, 1);
    assert FullYear(c.year) == c.year;
  }

  lemma MonthEndOfMidnight(t: int, day: int)
    requires t == DayStart(day)
    requires OutsideEarlyYears(day)
    ensures MonthEndFrom(t) == DayStart(LastOfMonth(day))
  {
    OutsideEarlyYearsIff(day);
    DayOfDayStart(day, 0);
    assert Day(DayStart(day)) == day;
    var c := CivilOfDay(day);
    assert MonthEndFrom(DayStart(day)) == NewDate(c.year, c.month + 1, 0);
    assert FullYear(c.year) == c.year;
    assert NewDate(c.year, c.month + 1, 0) == DayStart(MakeDay(c.year, c.month + 1, 0));
    MakeDayMonthEnd(c.year, c.month);
  }

  /** Today lies between the first and the last day of its month. */
  lemma WithinMonth(day: int)
    ensures FirstOfMonth(day) <= day <= LastOfMonth(day)
  {
    var c := CivilOfDay(day);
    MakeDayOfCivil(day);
    MakeDayOfValid(Civil(c.year, c.month, 1));
    MakeDayOfValid(Civil(c.year, c.month, DaysInMonth(c.month, IsLeapYear(c.year))));
    MakeDayOfValid(c);
  }

  /** The first and last day of a month read back as that month's dates 1 and n. */
  lemma MonthEnds(day: int)
    ensures var c := CivilOfDay(day);
      && CivilOfDay(FirstOfMonth(day)) == Civil(c.year, c.month, 1)
      && CivilOfDay(LastOfMonth(day)) == Civil(c.year, c.month, DaysInMonth(c.month, IsLeapYear(c.year)))
  {
    var c := CivilOfDay(day);
    CivilOfMakeDay(Civil(c.year, c.month, 1));
    CivilOfMakeDay(Civil(c.year, c.month, DaysInMonth(c.month, IsLeapYear(c.year))));
  }


  /**
   * The anchors are pinned down by the day `d` they were computed on: the
   * form `AnchorsMeaning` proves and the bucket lemmas start from.
   */
  predicate AnchoredAt(a: Anchors, d: int) {
    var w := WeekDay(d);
    a == Anchors(DayStart(d), DayStart(d + 1), DayStart(d - w), DayStart(d - w + 6),
                 DayStart(FirstOfMonth(d)), DayStart(LastOfMonth(d)))
  }
}

=== FILE: buckets.dfy ===
/**
 * What each bucket of `filterTasksByDate` holds, stated on calendar days,
 * and the quirks of the code as written.  Each bucket is first described
 * for anchors computed on a day `d` (`AnchoredAt`), then for the clock
 * instant `now` itself.
 */
module Buckets {
  import opened Wrappers
  import opened JsDate
  import opened CalendarAnchors
  import opened DateFilters

  /** The due day of a task whose due date is set. */
  function DueDay(t: Task): int
    requires t.dueDate.Some?
  {
    Day(t.dueDate.value)
  }

  /** The due date is set and its year is not one `new Date(y, m, d)` remaps. */
  predicate PlainDue(t: Task) {
    t.dueDate.Some? && LiteralYear(t.dueDate.value)
  }

  /** Two midnights are equal exactly when their days are. */
  lemma DayStartInjective(x: int, y: int)
    ensures DayStart(x) == DayStart(y) <==> x == y
  {
  }

  /** An instant is before the midnight starting day `d` exactly when its day is earlier. */
  lemma BeforeDayStart(t: int, d: int)
    ensures t < DayStart(d) <==> Day(t) < d
  {
    DayBounds(t);
  }

  // ---------------------------------------------------------------------------
  // Buckets for anchors computed on day `d`

  lemma TodayBucketOn(a: Anchors, d: int, t: Task)
    requires a.today == DayStart(d)
    requires t.dueDate.Some? ==> PlainDue(t)
    ensures InBucket(Today, a, t) <==> t.dueDate.Some? && DueDay(t) == d && !t.completed
  {
    if t.dueDate.Some? {
      MidnightIsDayStart(t.dueDate.value);
      DayStartInjective(DueDay(t), d);
    }
  }

  lemma TomorrowBucketOn(a: Anchors, d: int, t: Task)
    requires a.tomorrow == DayStart(d + 1)
    requires t.dueDate.Some? ==> PlainDue(t)
    ensures InBucket(Tomorrow, a, t) <==> t.dueDate.Some? && DueDay(t) == d + 1 && !t.completed
  {
    if t.dueDate.Some? {
      MidnightIsDayStart(t.dueDate.value);
      DayStartInjective(DueDay(t), d + 1);
    }
  }

  lemma OverdueBucketOn(a: Anchors, d: int, t: Task)
    requires a.today == DayStart(d)
    ensures InBucket(Overdue, a, t) <==> t.dueDate.Some? && t.dueDate.value < DayStart(d) && !t.completed
    ensures InBucket(Overdue, a, t) <==> t.dueDate.Some? && DueDay(t) < d && !t.completed
  {
    if t.dueDate.Some? {
      BeforeDayStart(t.dueDate.value, d);
    }
  }

  // ---------------------------------------------------------------------------
  // Buckets at the clock instant `now`

  /** `today` holds the unfinished tasks due on the day of `now`. */
  lemma TodayBucket(now: int, t: Task)
    requires LiteralYear(now)
    requires t.dueDate.Some? ==> PlainDue(t)
    ensures InBucket(Today, AnchorsAt(now), t)
        <==> t.dueDate.Some? && DueDay(t) == Day(now) && !t.completed
  {
    AnchorsMeaning(now);
    TodayBucketOn(AnchorsAt(now), Day(now), t);
  }

  /** `tomorrow` holds the unfinished tasks due on the next day. */
  lemma TomorrowBucket(now: int, t: Task)
    requires LiteralYear(now)
    requires t.dueDate.Some? ==> PlainDue(t)
    ensures InBucket(Tomorrow, AnchorsAt(now), t)
        <==> t.dueDate.Some? && DueDay(t) == Day(now) + 1 && !t.completed
  {
    AnchorsMeaning(now);
    TomorrowBucketOn(AnchorsAt(now), Day(now), t);
  }

  /**
   * `overdue` holds the unfinished tasks due before today's midnight, that
   * is on an earlier day, whatever the year of the due date.
   */
  lemma OverdueBucket(now: int, t: Task)
    requires LiteralYear(now)
    ensures InBucket(Overdue, AnchorsAt(now), t)
        <==> t.dueDate.Some? && t.dueDate.value < DayStart(Day(now)) && !t.completed
    ensures InBucket(Overdue, AnchorsAt(now), t)
        <==> t.dueDate.Some? && DueDay(t) < Day(now) && !t.completed
  {
    AnchorsMeaning(now);
    OverdueBucketOn(AnchorsAt(now), Day(now), t);
  }

  /**
   * `thisWeek` holds the unfinished tasks due from the midnight starting
   * this week's Sunday up to the midnight starting its Saturday, inclusive:
   * the full due instant is compared, not its day.
   */
  lemma ThisWeekBucket(now: int, t: Task)
    requires LiteralYear(now)
    ensures var sunday := Day(now) - WeekDay(Day(now));
      InBucket(ThisWeek, AnchorsAt(now), t) <==>
        t.dueDate.Some? && DayStart(sunday) <= t.dueDate.value <= DayStart(sunday + 6) && !t.completed
  {
    AnchorsMeaning(now);
    var sunday := Day(now) - WeekDay(Day(now));
    RangeBucketOn(ThisWeek, AnchorsAt(now), DayStart(sunday), DayStart(sunday + 6), t);
  }

  /**
   * `thisMonth` holds the unfinished tasks due from the midnight starting the
   * month's first day up to the midnight starting its last day, inclusive.
   */
  lemma ThisMonthBucket(now: int, t: Task)
    requires LiteralYear(now)
    ensures var d := Day(now);
      InBucket(ThisMonth, AnchorsAt(now), t) <==>
        t.dueDate.Some? && DayStart(FirstOfMonth(d)) <= t.dueDate.value <= DayStart(LastOfMonth(d)) && !t.completed
  {
    AnchorsMeaning(now);
    var d := Day(now);
    RangeBucketOn(ThisMonth, AnchorsAt(now), DayStart(FirstOfMonth(d)), DayStart(LastOfMonth(d)), t);
  }

  /** The week and month buckets are inclusive ranges of due instants. */
  lemma RangeBucketOn(f: FilterType, a: Anchors, lo: int, hi: int, t: Task)
    requires f == ThisWeek ==> a.startOfWeek == lo && a.endOfWeek == hi
    requires f == ThisMonth ==> a.startOfMonth == lo && a.endOfMonth == hi
    requires f == ThisWeek || f == ThisMonth
    ensures InBucket(f, a, t) <==> t.dueDate.Some? && lo <= t.dueDate.value <= hi && !t.completed
  {
  }

  /** A task without a due date is in no dated bucket. */
  lemma MissingDueInNoDatedBucket(a: Anchors, t: Task, f: FilterType)
    requires t.dueDate.None?
    requires f != All && f != FilterType.Completed
    ensures !InBucket(f, a, t)
  {
  }

  /** A completed task is in no dated bucket, and always in `completed`. */
  lemma CompletedInNoDatedBucket(a: Anchors, t: Task, f: FilterType)
    requires t.completed
    ensures InBucket(f, a, t) <==> f == All || f == FilterType.Completed
  {
  }

  // ---------------------------------------------------------------------------
  // Whole filters

  /** Membership in a filter's result is the bucket predicate. */
  lemma FilterMembership(tasks: seq<Task>, f: FilterType, a: Anchors, t: Task)
    ensures t in FilterWith(tasks, f, a) <==> t in tasks && InBucket(f, a, t)
  {
    var r := FilterWith(tasks, f, a);
    assert t in r <==> multiset(r)[t] > 0;
    assert t in tasks <==> multiset(tasks)[t] > 0;
  }

  /** `filter = 'completed'` keeps exactly the completed tasks, as often as given, due date or not. */
  lemma CompletedFilter(tasks: seq<Task>, now: int)
    ensures var r := FilterTasksByDate(tasks, FilterType.Completed, now);
      && (forall t :: t in r <==> t in tasks && t.completed)
      && (forall t: Task :: t.completed ==> multiset(r)[t] == multiset(tasks)[t])
  {
    CompletedFilterWith(tasks, AnchorsAt(now));
  }

  lemma CompletedFilterWith(tasks: seq<Task>, a: Anchors)
    ensures var r := FilterWith(tasks, FilterType.Completed, a);
      && (forall t :: t in r <==> t in tasks && t.completed)
      && (forall t: Task :: t.completed ==> multiset(r)[t] == multiset(tasks)[t])
  {
    forall t
      ensures t in FilterWith(tasks, FilterType.Completed, a) <==> t in tasks && t.completed
    {
      FilterMembership(tasks, FilterType.Completed, a, t);
    }
  }

  /** No dated filter ever returns a completed task. */
  lemma DatedFiltersDropCompleted(tasks: seq<Task>, f: FilterType, now: int, t: Task)
    requires f != All && f != FilterType.Completed
    requires t in FilterTasksByDate(tasks, f, now)
    ensures !t.completed
  {
    FilterMembership(tasks, f, AnchorsAt(now), t);
  }

  /** The `today` filter as a whole: the unfinished tasks due today, in input order. */
  lemma TodayFilter(tasks: seq<Task>, now: int)
    requires LiteralYear(now)
    requires forall t :: t in tasks && t.dueDate.Some? ==> PlainDue(t)
    ensures var r := FilterTasksByDate(tasks, Today, now);
      && IsSubsequence(r, tasks)
      && forall t :: t in r <==> t in tasks && t.dueDate.Some? && DueDay(t) == Day(now) && !t.completed
  {
    forall t
      ensures t in FilterTasksByDate(tasks, Today, now)
          <==> t in tasks && t.dueDate.Some? && DueDay(t) == Day(now) && !t.completed
    {
      FilterMembership(tasks, Today, AnchorsAt(now), t);
      if t in tasks { TodayBucket(now, t); }
    }
  }

  /** The `overdue` filter as a whole: the unfinished tasks due on an earlier day. */
  lemma OverdueFilter(tasks: seq<Task>, now: int)
    requires LiteralYear(now)
    ensures var r := FilterTasksByDate(tasks, Overdue, now);
      && IsSubsequence(r, tasks)
      && forall t :: t in r <==> t in tasks && t.dueDate.Some? && DueDay(t) < Day(now) && !t.completed
  {
    forall t
      ensures t in FilterTasksByDate(tasks, Overdue, now)
          <==> t in tasks && t.dueDate.Some? && DueDay(t) < Day(now) && !t.completed
    {
      FilterMembership(tasks, Overdue, AnchorsAt(now), t);
      OverdueBucket(now, t);
    }
  }

  // ---------------------------------------------------------------------------
  // Quirks of the code as written

  /**
   * A task due on this week's Saturday after midnight is left out of
   * `thisWeek`, because the comparison is with the midnight starting Saturday.
   */
  lemma LateSaturdayNotThisWeek(now: int, t: Task, ms: int)
    requires LiteralYear(now)
    requires 0 < ms < MsPerDay
    requires t.dueDate == Some(DayStart(Day(now) - WeekDay(Day(now)) + 6) + ms)
    ensures DueDay(t) == Day(now) - WeekDay(Day(now)) + 6
    ensures !InBucket(ThisWeek, AnchorsAt(now), t)
  {
    ThisWeekBucket(now, t);
    DayOfDayStart(Day(now) - WeekDay(Day(now)) + 6, ms);
  }

  /**
   * On a Saturday, an unfinished task due later that day is in `today` but
   * not in `thisWeek`.
   */
  lemma SaturdayTodayNotThisWeek(now: int, t: Task)
    requires LiteralYear(now) && PlainDue(t) && !t.completed
    requires WeekDay(Day(now)) == 6
    requires DueDay(t) == Day(now) && t.dueDate.value != DayStart(Day(now))
    ensures InBucket(Today, AnchorsAt(now), t)
    ensures !InBucket(ThisWeek, AnchorsAt(now), t)
  {
    TodayBucket(now, t);
    ThisWeekBucket(now, t);
    DayBounds(t.dueDate.value);
  }

  /** A task due on the month's last day after midnight is left out of `thisMonth`. */
  lemma LateLastDayNotThisMonth(now: int, t: Task, ms: int)
    requires LiteralYear(now)
    requires 0 < ms < MsPerDay
    requires t.dueDate == Some(DayStart(LastOfMonth(Day(now))) + ms)
    ensures DueDay(t) == LastOfMonth(Day(now))
    ensures !InBucket(ThisMonth, AnchorsAt(now), t)
  {
    ThisMonthBucket(now, t);
    DayOfDayStart(LastOfMonth(Day(now)), ms);
  }

  /**
   * A due date in years 1..99 is read back by `new Date(y, m, d)` as
   * 1901..1999: a task due on a date of year 24, say, is in `today` on the
   * same date of 1924.
   */
  lemma EarlyYearLandsInTwentiethCentury(now: int, t: Task, c: Civil)
    requires ValidCivil(c) && 1 <= c.year <= 99
    requires !t.completed
    requires t.dueDate.Some? && DueDay(t) == MakeDay(c.year, c.month, c.date)
    requires Day(now) == MakeDay(1900 + c.year, c.month, c.date)
    ensures InBucket(Today, AnchorsAt(now), t)
  {
    EarlyNowIsLiteral(now, c);
    AnchorsMeaning(now);
    EarlyYearTodayOn(AnchorsAt(now), Day(now), t, c);
  }

  lemma EarlyNowIsLiteral(now: int, c: Civil)
    requires ValidCivil(c) && 1 <= c.year <= 99
    requires Day(now) == MakeDay(1900 + c.year, c.month, c.date)
    ensures LiteralYear(now)
  {
    EarlyCivilStaysValid(c);
    YearOfMakeDay(Civil(1900 + c.year, c.month, c.date));
    OutsideEarlyYearsIff(Day(now));
  }

  lemma EarlyYearTodayOn(a: Anchors, d: int, t: Task, c: Civil)
    requires a.today == DayStart(d)
    requires ValidCivil(c) && 1 <= c.year <= 99
    requires !t.completed
    requires t.dueDate.Some? && DueDay(t) == MakeDay(c.year, c.month, c.date)
    requires d == MakeDay(1900 + c.year, c.month, c.date)
    ensures InBucket(Today, a, t)
  {
    var due := t.dueDate.value;
    assert DueTime(t) == Valid(due);
    MidnightOfCivil(due, c);
    EarlyNewDate(c, d);
    assert Midnight(DueTime(t)) == Valid(a.today);
  }

  /** `new Date(y, m, dt)` with `y` in 1..99 is the midnight of the same date in 1900 + y. */
  lemma EarlyNewDate(c: Civil, d: int)
    requires 1 <= c.year <= 99
    requires d == MakeDay(1900 + c.year, c.month, c.date)
    ensures NewDate(c.year, c.month, c.date) == DayStart(d)
  {
    assert FullYear(c.year) == 1900 + c.year;
  }

  /** The same month and date 1900 years later is still a valid date. */
  lemma EarlyCivilStaysValid(c: Civil)
    requires ValidCivil(c) && 1 <= c.year <= 99
    ensures ValidCivil(Civil(1900 + c.year, c.month, c.date))
  {
    assert (1900 + c.year) % 4 == c.year % 4;
    assert (1900 + c.year) % 100 == c.year;
    assert (1900 + c.year) % 400 != 0;
  }
}

=== FILE: date_filters.dfy ===
/**
 * `filterTasksByDate` (utils/dateFilters.ts): the seven task buckets, each
 * measured against anchors computed from the instant `now`.
 */
module DateFilters {
  import opened Wrappers
  import opened JsDate
  import opened CalendarAnchors

  datatype Priority = Low | Medium | High
  datatype Status = Pending | InProgress | Completed

  /**
   * A task as the classifier sees it.  `dueDate` is the time value the due
   * date string parses to, `None` when the field is absent (or does not
   * parse): either way `new Date(task.dueDate)` is an Invalid Date.
   * `completed` is false when the field is absent.  The remaining fields are
   * carried along unread, so tasks that differ only in them stay distinct.
   */
  datatype Task = Task(
    id: string,
    title: string,
    description: string,
    priority: Priority,
    status: Status,
    completed: bool,
    dueDate: Option<int>,
    assignedBy: Option<string>,
    assignedTo: Option<string>,
    createdAt: string,
    updatedAt: string)

  /** `new Date(task.dueDate)`. */
  function DueTime(t: Task): (v: TimeValue)
    ensures v.Valid? <==> t.dueDate.Some?
  {
    match t.dueDate
    case None => NaN
    case Some(ms) => Valid(ms)
  }

  datatype FilterType = All | Today | Tomorrow | ThisWeek | ThisMonth | Overdue | Completed

  /** Whether task `t` belongs to bucket `f`, with the anchors `a`. */
  predicate InBucket(f: FilterType, a: Anchors, t: Task) {
    match f
    case All => true
    case Today => SameTime(Midnight(DueTime(t)), Valid(a.today)) && !t.completed
    case Tomorrow => SameTime(Midnight(DueTime(t)), Valid(a.tomorrow)) && !t.completed
    case ThisWeek =>
      LessEq(Valid(a.startOfWeek), DueTime(t)) && LessEq(DueTime(t), Valid(a.endOfWeek)) && !t.completed
    case ThisMonth =>
      LessEq(Valid(a.startOfMonth), DueTime(t)) && LessEq(DueTime(t), Valid(a.endOfMonth)) && !t.completed
    case Overdue => IsLate(t, a.today)
    case Completed => t.completed
  }

  /** `taskDate < today && !task.completed`: shared by the overdue bucket and the sort. */
  predicate IsLate(t: Task, today: int) {
    Less(DueTime(t), Valid(today)) && !t.completed
  }

  // ---------------------------------------------------------------------------
  // Array.prototype.filter

  /** `s` keeps the order of `r`'s elements: `r` can be read off `s` left to right. */
  predicate IsSubsequence<T(==)>(r: seq<T>, s: seq<T>)
    decreases |s|
  {
    if |r| == 0 then true
    else if |s| == 0 then false
    else if r[0] == s[0] then IsSubsequence(r[1..], s[1..])
    else IsSubsequence(r, s[1..])
  }

  /**
   * `s.filter(p)`: every element of `s` satisfying `p`, each as often as in
   * `s`, in the order of `s`, and nothing else.
   */
  function Keep<T(==,!new)>(s: seq<T>, p: T -> bool): (r: seq<T>)
    ensures forall k :: 0 <= k < |r| ==> p(r[k])
    ensures forall x :: multiset(r)[x] == if p(x) then multiset(s)[x] else 0
    ensures IsSubsequence(r, s)
  {
    if |s| == 0 then []
    else
      var rest := Keep(s[1..], p);
      assert s == [s[0]] + s[1..];
      if p(s[0]) then
        assert ([s[0]] + rest)[1..] == rest;
        [s[0]] + rest
      else
        assert |rest| > 0 ==> rest[0] != s[0];
        rest
  }

  /** The switch of `filterTasksByDate` for given anchors. */
  function FilterWith(tasks: seq<Task>, filter: FilterType, a: Anchors): (r: seq<Task>)
    ensures filter == All ==> r == tasks
    ensures IsSubsequence(r, tasks)
    ensures forall t :: multiset(r)[t] == if InBucket(filter, a, t) then multiset(tasks)[t] else 0
  {
    if filter == All then
      SubsequenceOfSelf(tasks);
      tasks
    else
      Keep(tasks, t => InBucket(filter, a, t))
  }

  /** `filterTasksByDate(tasks, filter)` when the clock reads `now`. */
  function FilterTasksByDate(tasks: seq<Task>, filter: FilterType, now: int): (r: seq<Task>)
    ensures filter == All ==> r == tasks
    ensures IsSubsequence(r, tasks)
    ensures forall t :: multiset(r)[t] == if InBucket(filter, AnchorsAt(now), t) then multiset(tasks)[t] else 0
  {
    FilterWith(tasks, filter, AnchorsAt(now))
  }

  lemma {:induction false} SubsequenceOfSelf<T>(s: seq<T>)
    ensures IsSubsequence(s, s)
  {
    if |s| > 0 {
      SubsequenceOfSelf(s[1..]);
    }
  }
}

=== FILE: date_info.dfy ===
/**
 * `getTaskDateInfo` (utils/dateFilters.ts): the badge shown next to a task,
 * computed from the whole-day distance between the task's due day and today.
 */
module DateInfo {
  import opened Wrappers
  import opened JsDate
  import opened JsString
  import opened CalendarAnchors
  import opened DateFilters
  import opened Buckets

  /**
   * The record `getTaskDateInfo` returns.  `daysDifference` is `None` where
   * the source computes NaN, which happens exactly when the due date is
   * missing or does not parse.
   */
  datatype Info = Info(
    isOverdue: bool,
    isToday: bool,
    isTomorrow: bool,
    daysDifference: Option<int>,
    displayText: string)

  /** `Math.ceil(ms / (1000 * 3600 * 24))` for a whole number of milliseconds. */
  function CeilDays(ms: int): (n: int)
    ensures (n - 1) * MsPerDay < ms <= n * MsPerDay
  {
    var q := ms / MsPerDay;
    if ms % MsPerDay == 0 then q else q + 1
  }

  /** `${n > 1 ? 's' : ''}`. */
  function Plural(n: int): string {
    if n > 1 then "s" else ""
  }

  /** `${n} jour${n > 1 ? 's' : ''}`. */
  function DayCount(n: int): string {
    IntToString(n) + " jour" + Plural(n)
  }

  /** What `toLocaleDateString` prints for an Invalid Date (ECMA-402). */
  const InvalidDateText: string := "Invalid Date"

  /**
   * The body of `getTaskDateInfo` once the two midnights are known: `taskDay`
   * is `new Date(y, m, d)` of the due date and `today` that of the clock.
   * `formatDate` stands for `toLocaleDateString('fr-FR')` of the due instant.
   */
  function InfoFrom(t: Task, taskDay: TimeValue, today: int, formatDate: int -> string): (info: Info)
    requires taskDay.Valid? <==> t.dueDate.Some?
    ensures info.daysDifference.None? <==> t.dueDate.None?
    ensures info.isOverdue ==> !t.completed
    ensures !(info.isToday && info.isTomorrow) && !(info.isOverdue && info.isToday) && !(info.isOverdue && info.isTomorrow)
  {
    match taskDay
    case NaN => Info(false, false, false, None, InvalidDateText)
    case Valid(ms) =>
      var d := CeilDays(ms - today);
      var isOverdue := d < 0 && !t.completed;
      var isToday := d == 0;
      var isTomorrow := d == 1;
      Info(isOverdue, isToday, isTomorrow, Some(d), Badge(d, t.completed, formatDate(t.dueDate.value)))
  }

  /** The `displayText` chain for day distance `d`, with `formatted` the localised due date. */
  function Badge(d: int, completed: bool, formatted: string): string {
    if d < 0 && !completed then "En retard de " + DayCount(-d)
    else if d == 0 then "Aujourd'hui"
    else if d == 1 then "Demain"
    else if d <= 7 then "Dans " + DayCount(d)
    else formatted
  }

  /** `getTaskDateInfo(task)` when the clock reads `now`. */
  function GetTaskDateInfo(t: Task, now: int, formatDate: int -> string): (info: Info)
    ensures info.daysDifference.None? <==> t.dueDate.None?
    ensures info.isOverdue ==> !t.completed
    ensures t.dueDate.None? ==> info == Info(false, false, false, None, InvalidDateText)
  {
    InfoFrom(t, Midnight(DueTime(t)), TodayAt(now), formatDate)
  }

  // ---------------------------------------------------------------------------
  // Reading a badge back

  /** The count in `N jour` or `N jours`. */
  function ReadCount(s: string): Option<int> {
    if |s| >= 6 && s[|s| - 6..] == " jours" then ParseInt(s[..|s| - 6])
    else if |s| >= 5 && s[|s| - 5..] == " jour" then ParseInt(s[..|s| - 5])
    else None
  }

  /**
   * The signed day distance a badge announces: 0 for "Aujourd'hui", 1 for
   * "Demain", -N for "En retard de N jour(s)", N for "Dans N jour(s)", and
   * nothing for any other text.
   */
  function ReadBadge(text: string): Option<int> {
    if text == "Aujourd'hui" then Some(0)
    else if text == "Demain" then Some(1)
    else if |text| >= 13 && text[..13] == "En retard de " then
      match ReadCount(text[13..])
      case Some(n) => Some(-n)
      case None => None
    else if |text| >= 5 && text[..5] == "Dans " then ReadCount(text[5..])
    else None
  }

  lemma ReadDayCount(n: int)
    ensures ReadCount(DayCount(n)) == Some(n)
  {
    var s := DayCount(n);
    IntToStringRoundTrip(n);
    if n > 1 {
      assert s[|s| - 6..] == " jours";
      assert s[..|s| - 6] == IntToString(n);
    } else {
      assert s == IntToString(n) + " jour";
      assert s[|s| - 6..] != " jours" by {
        assert s[|s| - 1] == 'r';
      }
      assert s[|s| - 5..] == " jour";
      assert s[..|s| - 5] == IntToString(n);
    }
  }

  lemma ReadPrefixed(prefix: string, n: int)
    requires prefix == "En retard de " || prefix == "Dans "
    ensures var text := prefix + DayCount(n);
      && text != "Aujourd'hui" && text != "Demain"
      && (prefix == "Dans " ==> !(|text| >= 13 && text[..13] == "En retard de "))
      && text[|prefix|..] == DayCount(n)
      && text[..|prefix|] == prefix
  {
    var text := prefix + DayCount(n);
    assert text[0] == prefix[0];
    assert text[1] == prefix[1];
  }

  /**
   * Whenever the badge is not a formatted date, it reads back as the
   * signed day distance: the label states `daysDifference` faithfully, also
   * in the "Dans -N jour" that a finished task due in the past receives.
   */
  lemma BadgeReadsBack(d: int, completed: bool, formatted: string)
    requires d <= 7
    ensures ReadBadge(Badge(d, completed, formatted)) == Some(d)
  {
    if d < 0 && !completed {
      ReadLate(-d);
    } else if d != 0 && d != 1 {
      ReadAhead(d);
    }
  }

  lemma ReadLate(n: int)
    ensures ReadBadge("En retard de " + DayCount(n)) == Some(-n)
  {
    ReadPrefixed("En retard de ", n);
    ReadDayCount(n);
  }

  lemma ReadAhead(n: int)
    ensures ReadBadge("Dans " + DayCount(n)) == Some(n)
  {
    ReadPrefixed("Dans ", n);
    ReadDayCount(n);
  }

  /** Past seven days ahead the badge is the formatted due date. */
  lemma FarBadgeIsDate(d: int, completed: bool, formatted: string)
    requires d > 7
    ensures Badge(d, completed, formatted) == formatted
  {
  }

  /**
   * The label priority: an unfinished task behind schedule shows the delay;
   * otherwise distance 0 shows "Aujourd'hui" and distance 1 "Demain", and
   * the badge of a distance up to 7 is one of these texts only for that
   * distance.
   */
  lemma LabelPriority(t: Task, taskDay: TimeValue, today: int, formatDate: int -> string)
    requires taskDay.Valid? <==> t.dueDate.Some?
    ensures var info := InfoFrom(t, taskDay, today, formatDate);
      && (info.isOverdue <==> info.daysDifference.Some? && info.daysDifference.value < 0 && !t.completed)
      && (info.isToday <==> info.daysDifference == Some(0))
      && (info.isTomorrow <==> info.daysDifference == Some(1))
      && (info.isOverdue ==> info.displayText[..13] == "En retard de ")
      && (info.isToday ==> info.displayText == "Aujourd'hui")
      && (info.isTomorrow ==> info.displayText == "Demain")
      && (info.daysDifference.Some? && info.daysDifference.value <= 7 ==>
            ReadBadge(info.displayText) == info.daysDifference)
  {
    var info := InfoFrom(t, taskDay, today, formatDate);
    if info.daysDifference.Some? {
      var d := info.daysDifference.value;
      if d <= 7 {
        BadgeReadsBack(d, t.completed, formatDate(t.dueDate.value));
      }
      if info.isOverdue {
        ReadPrefixed("En retard de ", -d);
      }
    }
  }

  /** The plural "s" appears exactly when the count is above one. */
  lemma DayCountPlural(n: int)
    ensures var s := DayCount(n); |s| > 0 && (s[|s| - 1] == 's' <==> n > 1)
  {
  }

  /**
   * A finished task due in the past is not overdue, so it falls through to
   * the "Dans" branch and shows a negative, singular count.
   */
  lemma CompletedPastBadge(d: int, formatted: string)
    requires d < 0
    ensures Badge(d, true, formatted) == "Dans " + IntToString(d) + " jour"
  {
  }

  lemma BadgeExamples(formatted: string)
    ensures Badge(-2, false, formatted) == "En retard de 2 jours"
    ensures Badge(-1, false, formatted) == "En retard de 1 jour"
    ensures Badge(3, false, formatted) == "Dans 3 jours"
    ensures Badge(-1, true, formatted) == "Dans -1 jour"
  {
  }

  // ---------------------------------------------------------------------------
  // The distance in calendar days

  /** A whole number of days rounds up to itself. */
  lemma CeilDaysOfDayStart(k: int)
    ensures CeilDays(DayStart(k)) == k
  {
  }

  /** With both midnights known, `daysDifference` is the distance between their days. */
  lemma DistanceOfMidnights(t: Task, taskDay: TimeValue, today: int, formatDate: int -> string, a: int, b: int)
    requires taskDay == Valid(DayStart(a)) && t.dueDate.Some?
    requires today == DayStart(b)
    ensures InfoFrom(t, taskDay, today, formatDate).daysDifference == Some(a - b)
  {
    assert DayStart(a) - DayStart(b) == DayStart(a - b);
    CeilDaysOfDayStart(a - b);
  }

  /**
   * `daysDifference` is the number of calendar days from today to the due
   * day: negative in the past, 0 today, 1 tomorrow.
   */
  lemma DaysDifferenceIsDayGap(t: Task, now: int, formatDate: int -> string)
    requires LiteralYear(now) && PlainDue(t)
    ensures GetTaskDateInfo(t, now, formatDate).daysDifference.Some?
    ensures GetTaskDateInfo(t, now, formatDate).daysDifference.value == Day(t.dueDate.value) - Day(now)
  {
    var due := t.dueDate.value;
    assert DueTime(t) == Valid(due);
    MidnightIsDayStart(due);
    TodayAnchor(now);
    DistanceAt(t, now, formatDate, Day(due), Day(now));
  }

  lemma DistanceAt(t: Task, now: int, formatDate: int -> string, a: int, b: int)
    requires t.dueDate.Some?
    requires Midnight(DueTime(t)) == Valid(DayStart(a)) && TodayAt(now) == DayStart(b)
    ensures GetTaskDateInfo(t, now, formatDate).daysDifference.Some?
    ensures GetTaskDateInfo(t, now, formatDate).daysDifference.value == a - b
  {
    DistanceOfMidnights(t, Midnight(DueTime(t)), TodayAt(now), formatDate, a, b);
  }

  /** The badge's flags agree with the buckets of `filterTasksByDate`. */
  lemma FlagsMatchBuckets(t: Task, now: int, formatDate: int -> string)
    requires LiteralYear(now) && PlainDue(t)
    ensures var info := GetTaskDateInfo(t, now, formatDate);
      && (info.isOverdue <==> InBucket(Overdue, AnchorsAt(now), t))
      && (info.isToday && !t.completed <==> InBucket(Today, AnchorsAt(now), t))
      && (info.isTomorrow && !t.completed <==> InBucket(Tomorrow, AnchorsAt(now), t))
  {
    var info := GetTaskDateInfo(t, now, formatDate);
    DaysDifferenceIsDayGap(t, now, formatDate);
    LabelPriority(t, Midnight(DueTime(t)), TodayAt(now), formatDate);
    OverdueBucket(now, t);
    TodayBucket(now, t);
    TomorrowBucket(now, t);
  }
}

=== FILE: form_errors.dfy ===
/**
 * The per-field error messages both authentication screens keep: a partial
 * record from field names to messages.  A field whose message was reset to
 * `undefined` reads exactly like a field that was never set, so both are an
 * absent key here.
 */
module FormErrors {
  import opened Wrappers

  /** Every message present is non-empty, hence truthy in `if (errors[field])`. */
  predicate Truthy<F(!new)>(errors: map<F, string>) {
    forall g :: g in errors ==> errors[g] != ""
  }

  /** `if (...) newErrors[f] = m`: record the message `m` of `f`, when there is one. */
  function Note<F(!new)>(errors: map<F, string>, f: F, m: Option<string>): (r: map<F, string>)
    ensures forall g :: g != f ==> (g in r <==> g in errors)
    ensures forall g :: g != f && g in errors ==> r[g] == errors[g]
    ensures f in r <==> f in errors || m.Some?
    ensures m.Some? ==> r[f] == m.value
    ensures m.None? ==> r == errors
  {
    match m
    case Some(msg) => errors[f := msg]
    case None => errors
  }

  /**
   * `if (errors[field]) setErrors(prev => ({ ...prev, [field]: undefined }))`:
   * the message of `f` is dropped when it is truthy, and every other message
   * stays as it was.
   */
  function ClearError<F(!new)>(errors: map<F, string>, f: F): (r: map<F, string>)
    ensures forall g :: g != f ==> (g in r <==> g in errors)
    ensures forall g :: g != f && g in r ==> r[g] == errors[g]
    ensures f in r <==> f in errors && errors[f] == ""
    ensures f in r ==> r[f] == errors[f]
  {
    if f in errors && errors[f] != "" then errors - {f} else errors
  }

  /** On truthy messages, clearing removes the field's message and keeps the rest truthy. */
  lemma ClearTruthy<F(!new)>(errors: map<F, string>, f: F)
    requires Truthy(errors)
    ensures f !in ClearError(errors, f)
    ensures Truthy(ClearError(errors, f))
    ensures ClearError(errors, f) == errors - {f}
  {
  }

  /** Clearing a field twice is clearing it once. */
  lemma ClearIdempotent<F(!new)>(errors: map<F, string>, f: F)
    ensures ClearError(ClearError(errors, f), f) == ClearError(errors, f)
  {
  }
}

=== FILE: js_date.dfy ===
/**
 * The part of ECMAScript's date arithmetic (section 21.4.1 of ECMA-262) that
 * the task classifier relies on: day numbers, week days, the proleptic
 * Gregorian calendar, `MakeDay`, the `Date(year, month, date)` constructor and
 * `setDate`.
 *
 * A time value is an integer count of milliseconds since 1970-01-01T00:00.
 * Local time is taken to coincide with the time value (a zero time zone
 * offset and no daylight saving), so `getFullYear`, `getMonth`, `getDate` and
 * `getDay` read the calendar fields of the time value itself.  Months are
 * numbered 0..11 as in ECMAScript.
 */
module JsDate {

  /** msPerDay of ECMA-262. */
  const MsPerDay: int := 86400000

  /** Day(t): the day number holding the instant `t` (floor division). */
  function Day(t: int): int {
    t / MsPerDay
  }

  /** TimeWithinDay(t): milliseconds since that day's midnight. */
  function TimeWithinDay(t: int): int {
    t % MsPerDay
  }

  /** Midnight at the start of day number `day` (MakeDate(day, 0)). */
  function DayStart(day: int): int {
    day * MsPerDay
  }

  lemma DayOfDayStart(day: int, ms: int)
    requires 0 <= ms < MsPerDay
    ensures Day(DayStart(day) + ms) == day
    ensures TimeWithinDay(DayStart(day) + ms) == ms
  {
  }

  lemma DayBounds(t: int)
    ensures DayStart(Day(t)) <= t < DayStart(Day(t) + 1)
    ensures t == DayStart(Day(t)) + TimeWithinDay(t)
  {
  }

  /** WeekDay of a day number: 0 is Sunday; day 0 (1970-01-01) was a Thursday. */
  function WeekDay(day: int): (w: int)
    ensures 0 <= w < 7
    ensures (day - w) % 7 == 3
  {
    (day + 4) % 7
  }

  // ---------------------------------------------------------------------------
  // Years

  predicate IsLeapYear(y: int) {
    y % 4 == 0 && (y % 100 != 0 || y % 400 == 0)
  }

  function DaysInYear(y: int): int {
    if IsLeapYear(y) then 366 else 365
  }

  /** DayFromYear(y): the day number of the first of January of year `y`. */
  function DayFromYear(y: int): int {
    365 * (y - 1970) + (y - 1969) / 4 - (y - 1901) / 100 + (y - 1601) / 400
  }

  /** Consecutive years are as long as their leap status says. */
  lemma DayFromYearStep(y: int)
    ensures DayFromYear(y + 1) == DayFromYear(y) + DaysInYear(y)
  {
    var c4 := (y + 1 - 1969) / 4 - (y - 1969) / 4;
    var c100 := (y + 1 - 1901) / 100 - (y - 1901) / 100;
    var c400 := (y + 1 - 1601) / 400 - (y - 1601) / 400;
    LeapDayCount4(y);
    LeapDayCount100(y);
    LeapDayCount400(y);
    Divisibility(y);
    assert DayFromYear(y + 1) - DayFromYear(y) == 365 + c4 - c100 + c400;
    assert c4 - c100 + c400 == if IsLeapYear(y) then 1 else 0;
  }

  lemma LeapDayCount4(y: int)
    ensures (y + 1 - 1969) / 4 - (y - 1969) / 4 == if y % 4 == 0 then 1 else 0
  {
    var q := (y - 1969) / 4;
    assert y - 1969 == 4 * q + (y - 1969) % 4;
    assert y % 4 == 0 <==> (y - 1969) % 4 == 3;
  }

  lemma LeapDayCount100(y: int)
    ensures (y + 1 - 1901) / 100 - (y - 1901) / 100 == if y % 100 == 0 then 1 else 0
  {
    var q := (y - 1901) / 100;
    assert y - 1901 == 100 * q + (y - 1901) % 100;
    assert y % 100 == 0 <==> (y - 1901) % 100 == 99;
  }

  lemma LeapDayCount400(y: int)
    ensures (y + 1 - 1601) / 400 - (y - 1601) / 400 == if y % 400 == 0 then 1 else 0
  {
    var q := (y - 1601) / 400;
    assert y - 1601 == 400 * q + (y - 1601) % 400;
    assert y % 400 == 0 <==> (y - 1601) % 400 == 399;
  }

  /** A multiple of 400 is one of 100, and a multiple of 100 one of 4. */
  lemma Divisibility(y: int)
    ensures y % 400 == 0 ==> y % 100 == 0
    ensures y % 100 == 0 ==> y % 4 == 0
  {
    var q4, q100, q400 := y / 4, y / 100, y / 400;
    assert y == 4 * q4 + y % 4 && 0 <= y % 4 < 4;
    assert y == 100 * q100 + y % 100 && 0 <= y % 100 < 100;
    assert y == 400 * q400 + y % 400;
    if y % 400 == 0 {
      assert q100 == 4 * q400;
    }
    if y % 100 == 0 {
      assert q4 == 25 * q100;
    }
  }

  /** Every 400 years the Gregorian calendar repeats after 146097 days. */
  lemma DayFromYearEra(e: int)
    ensures DayFromYear(1970 + 400 * e) == 146097 * e
  {
    assert (1 + 400 * e) / 4 == 100 * e;
    assert (69 + 400 * e) / 100 == 4 * e;
    assert (369 + 400 * e) / 400 == e;
  }

  /** DayFromYear is strictly increasing. */
  lemma {:induction false} DayFromYearMonotone(a: int, b: int)
    requires a < b
    ensures DayFromYear(a) < DayFromYear(b)
    decreases b - a
  {
    DayFromYearStep(a);
    if a + 1 < b {
      DayFromYearMonotone(a + 1, b);
    }
  }

  /** Day number `day` falls in year `y`. */
  predicate InYear(day: int, y: int) {
    DayFromYear(y) <= day < DayFromYear(y + 1)
  }

  /** The largest year in lo..hi whose first day is not after `day`. */
  function FindYear(day: int, lo: int, hi: int): (y: int)
    requires lo <= hi
    requires DayFromYear(lo) <= day < DayFromYear(hi + 1)
    ensures lo <= y <= hi && InYear(day, y)
    decreases hi - lo
  {
    if DayFromYear(hi) <= day then hi
    else
      assert lo < hi;
      FindYear(day, lo, hi - 1)
  }

  /**
   * YearFromTime, on day numbers: the year `y` with
   * DayFromYear(y) <= day < DayFromYear(y + 1).  Such a year exists in the
   * 400-year era holding `day`, and no other year qualifies.
   */
  function YearOfDay(day: int): (y: int)
    ensures DayFromYear(y) <= day < DayFromYear(y + 1)
  {
    var e := day / 146097;
    var base := 1970 + 400 * e;
    DayFromYearEra(e);
    DayFromYearEra(e + 1);
    assert base + 399 + 1 == 1970 + 400 * (e + 1);
    assert InYear(day, FindYear(day, base, base + 399));
    forall y, y' | InYear(day, y) && InYear(day, y')
      ensures y == y'
    {
      InYearUnique(day, y, y');
    }
    var y :| base <= y <= base + 399 && InYear(day, y);
    y
  }

  /** Day `day` lies outside years 0..99, the years `new Date(y, m, d)` reads as 1900 + y. */
  predicate OutsideEarlyYears(day: int) {
    day < DayFromYear(0) || DayFromYear(100) <= day
  }

  /** The range test on day numbers agrees with the year of the day. */
  lemma OutsideEarlyYearsIff(day: int)
    ensures OutsideEarlyYears(day) <==> !(0 <= YearOfDay(day) <= 99)
  {
    var y := YearOfDay(day);
    if y < 0 {
      if y + 1 < 0 { DayFromYearMonotone(y + 1, 0); }
    } else if y > 99 {
      if 100 < y { DayFromYearMonotone(100, y); }
    } else {
      if 0 < y { DayFromYearMonotone(0, y); }
      if y + 1 < 100 { DayFromYearMonotone(y + 1, 100); }
    }
  }

  lemma InYearUnique(day: int, y: int, y': int)
    requires InYear(day, y) && InYear(day, y')
    ensures y == y'
  {
    if y < y' {
      if y + 1 < y' { DayFromYearMonotone(y + 1, y'); }
    } else if y' < y {
      if y' + 1 < y { DayFromYearMonotone(y' + 1, y); }
    }
  }

  /** Only one year can hold a given day. */
  lemma YearOfDayUnique(day: int, y: int)
    requires DayFromYear(y) <= day < DayFromYear(y + 1)
    ensures YearOfDay(day) == y
  {
    InYearUnique(day, y, YearOfDay(day));
  }

  // ---------------------------------------------------------------------------
  // Months

  /** Days in the year before month `m` (0..12); `m == 12` gives the year's length. */
  function MonthStart(m: int, leap: bool): int
    requires 0 <= m <= 12
  {
    var base :=
      if m == 0 then 0 else if m == 1 then 31 else if m == 2 then 59
      else if m == 3 then 90 else if m == 4 then 120 else if m == 5 then 151
      else if m == 6 then 181 else if m == 7 then 212 else if m == 8 then 243
      else if m == 9 then 273 else if m == 10 then 304 else if m == 11 then 334
      else 365;
    if leap && m >= 2 then base + 1 else base
  }

  function DaysInMonth(m: int, leap: bool): (n: int)
    requires 0 <= m < 12
    ensures 28 <= n <= 31
    ensures n == 29 <==> m == 1 && leap
  {
    MonthStart(m + 1, leap) - MonthStart(m, leap)
  }

  lemma MonthStartMonotone(a: int, b: int, leap: bool)
    requires 0 <= a < b <= 12
    ensures MonthStart(a, leap) < MonthStart(b, leap)
  {
  }

  /** The month in 0..k whose days cover day-within-year `d`. */
  function FindMonth(d: int, leap: bool, k: nat): (m: int)
    requires k < 12
    requires 0 <= d < MonthStart(k + 1, leap)
    ensures 0 <= m <= k
    ensures MonthStart(m, leap) <= d < MonthStart(m + 1, leap)
    decreases k
  {
    if MonthStart(k, leap) <= d then k else FindMonth(d, leap, k - 1)
  }

  /** Day-within-year `d` falls in month `m` (0 for January). */
  predicate InMonth(d: int, leap: bool, m: int) {
    0 <= m < 12 && MonthStart(m, leap) <= d < MonthStart(m + 1, leap)
  }

  /** MonthFromTime, on days within a year: the one month covering `d`. */
  function MonthOfDay(d: int, leap: bool): (m: int)
    requires 0 <= d < MonthStart(12, leap)
    ensures InMonth(d, leap, m)
  {
    assert InMonth(d, leap, FindMonth(d, leap, 11));
    forall m, m' | InMonth(d, leap, m) && InMonth(d, leap, m')
      ensures m == m'
    {
      MonthBracketUnique(d, leap, m, m');
    }
    var m :| 0 <= m < 12 && InMonth(d, leap, m);
    m
  }

  /** The calendar date of a day number, ECMAScript style. */
  datatype Civil = Civil(year: int, month: int, date: int)

  predicate ValidCivil(c: Civil) {
    0 <= c.month < 12 && 1 <= c.date <= DaysInMonth(c.month, IsLeapYear(c.year))
  }

  /** YearFromTime, MonthFromTime and DateFromTime of a day number. */
  function CivilOfDay(day: int): (c: Civil)
    ensures ValidCivil(c)
    ensures c.year == YearOfDay(day)
  {
    var y := YearOfDay(day);
    DayFromYearStep(y);
    CivilInYear(y, day - DayFromYear(y))
  }

  /** The calendar date of day `d` (counted from 0) of year `y`. */
  function CivilInYear(y: int, d: int): (c: Civil)
    requires 0 <= d < DaysInYear(y)
    ensures ValidCivil(c) && c.year == y
  {
    var leap := IsLeapYear(y);
    var m := MonthOfDay(d, leap);
    Civil(y, m, d - MonthStart(m, leap) + 1)
  }

  /**
   * MakeDay(year, month, date): the day number of `date` counted from the
   * first of `month`, where a month outside 0..11 carries into the year and
   * a date outside the month carries into neighbouring months.
   */
  function MakeDay(year: int, month: int, date: int): int {
    var ym := year + month / 12;
    var mn := month % 12;
    DayFromYear(ym) + MonthStart(mn, IsLeapYear(ym)) + date - 1
  }

  /** Reading a day's calendar fields and rebuilding the day gives it back. */
  lemma MakeDayOfCivil(day: int)
    ensures var c := CivilOfDay(day); MakeDay(c.year, c.month, c.date) == day
  {
    var c := CivilOfDay(day);
    MakeDayOfValid(c);
  }

  /** For a month in 0..11 nothing carries into the year. */
  lemma MakeDayOfValid(c: Civil)
    requires 0 <= c.month < 12
    ensures MakeDay(c.year, c.month, c.date)
         == DayFromYear(c.year) + MonthStart(c.month, IsLeapYear(c.year)) + c.date - 1
  {
    assert c.month / 12 == 0 && c.month % 12 == c.month;
  }

  /** A valid calendar date read back from its day number is unchanged. */
  lemma CivilOfMakeDay(c: Civil)
    requires ValidCivil(c)
    ensures CivilOfDay(MakeDay(c.year, c.month, c.date)) == c
  {
    YearOfMakeDay(c);
    CivilOfDayIn(MakeDay(c.year, c.month, c.date), c);
  }

  /** A day of year `c.year` at the offset of month `c.month`, date `c.date` reads back as `c`. */
  lemma CivilOfDayIn(day: int, c: Civil)
    requires ValidCivil(c) && YearOfDay(day) == c.year
    requires day - DayFromYear(c.year) == MonthStart(c.month, IsLeapYear(c.year)) + c.date - 1
    ensures CivilOfDay(day) == c
  {
    var d := day - DayFromYear(c.year);
    MonthOfDayWithinYear(d, IsLeapYear(c.year), c.month);
    assert CivilOfDay(day) == CivilInYear(c.year, d);
  }

  /** The year of a valid date's day number is that date's year. */
  lemma YearOfMakeDay(c: Civil)
    requires ValidCivil(c)
    ensures YearOfDay(MakeDay(c.year, c.month, c.date)) == c.year
    ensures MakeDay(c.year, c.month, c.date) - DayFromYear(c.year)
         == MonthStart(c.month, IsLeapYear(c.year)) + c.date - 1
  {
    MakeDayOfValid(c);
    OffsetWithinYear(c.month, c.date, IsLeapYear(c.year));
    DayFromYearStep(c.year);
    YearOfDayUnique(MakeDay(c.year, c.month, c.date), c.year);
  }

  /** A valid month and date count fewer days than the year holds. */
  lemma OffsetWithinYear(m: int, date: int, leap: bool)
    requires 0 <= m < 12 && 1 <= date <= DaysInMonth(m, leap)
    ensures 0 <= MonthStart(m, leap) + date - 1 < if leap then 366 else 365
  {
    MonthStartNotAfter(m + 1, 12, leap);
  }

  /** Only one month covers a given day within the year. */
  lemma MonthOfDayWithinYear(d: int, leap: bool, m: int)
    requires 0 <= m < 12
    requires MonthStart(m, leap) <= d < MonthStart(m + 1, leap)
    ensures MonthOfDay(d, leap) == m
  {
    MonthStartNotAfter(m + 1, 12, leap);
    MonthBracketUnique(d, leap, m, MonthOfDay(d, leap));
  }

  /** At most one month brackets a day within the year. */
  lemma MonthBracketUnique(d: int, leap: bool, m: int, m': int)
    requires 0 <= m < 12 && 0 <= m' < 12
    requires MonthStart(m, leap) <= d < MonthStart(m + 1, leap)
    requires MonthStart(m', leap) <= d < MonthStart(m' + 1, leap)
    ensures m == m'
  {
    if m' < m {
      MonthStartNotAfter(m' + 1, m, leap);
    } else if m < m' {
      MonthStartNotAfter(m + 1, m', leap);
    }
  }

  lemma MonthStartNotAfter(a: int, b: int, leap: bool)
    requires 0 <= a <= b <= 12
    ensures MonthStart(a, leap) <= MonthStart(b, leap)
  {
    if a < b { MonthStartMonotone(a, b, leap); }
  }

  /** Date 0 of the next month is the last date of this one (December carries into the year). */
  lemma MakeDayMonthEnd(y: int, m: int)
    requires 0 <= m < 12
    ensures MakeDay(y, m + 1, 0) == MakeDay(y, m, DaysInMonth(m, IsLeapYear(y)))
  {
    var leap := IsLeapYear(y);
    MakeDayOfValid(Civil(y, m, DaysInMonth(m, leap)));
    if m < 11 {
      MakeDayOfValid(Civil(y, m + 1, 0));
    } else {
      assert MakeDay(y, m + 1, 0) == DayFromYear(y + 1) - 1 by {
        assert (m + 1) / 12 == 1 && (m + 1) % 12 == 0;
      }
      DayFromYearStep(y);
      assert MonthStart(11, leap) + DaysInMonth(11, leap) == DaysInYear(y);
    }
  }

  /** Moving the date by one moves the day number by one. */
  lemma MakeDayShift(year: int, month: int, date: int, k: int)
    ensures MakeDay(year, month, date + k) == MakeDay(year, month, date) + k
  {
  }

  // ---------------------------------------------------------------------------
  // Date objects

  /** A Date's time value: NaN for an Invalid Date. */
  datatype TimeValue = NaN | Valid(ms: int)

  /** `a < b` on Dates: false whenever either side is NaN. */
  predicate Less(a: TimeValue, b: TimeValue) {
    a.Valid? && b.Valid? && a.ms < b.ms
  }

  /** `a <= b` on Dates: false whenever either side is NaN. */
  predicate LessEq(a: TimeValue, b: TimeValue) {
    a.Valid? && b.Valid? && a.ms <= b.ms
  }

  /** `a.getTime() === b.getTime()`: NaN equals nothing, itself included. */
  predicate SameTime(a: TimeValue, b: TimeValue) {
    a.Valid? && b.Valid? && a.ms == b.ms
  }

  /**
   * The year the `Date(year, month, date)` constructor uses: a two-digit year
   * keeps its last two digits and moves into the 1900s; other years stay.
   */
  function FullYear(year: int): (y: int)
    ensures !(0 <= y <= 99)
    ensures y % 100 == year % 100
    ensures 0 <= year <= 99 ==> 1900 <= y <= 1999
    ensures !(0 <= year <= 99) ==> y == year
  {
    if 0 <= year <= 99 then 1900 + year else year
  }

  /** `new Date(year, month, date)`: local midnight of that (carried) date. */
  function NewDate(year: int, month: int, date: int): int {
    DayStart(MakeDay(FullYear(year), month, date))
  }

  /**
   * `new Date(d.getFullYear(), d.getMonth(), d.getDate())`: the midnight of
   * the day holding `t`, except that years 0..99 are read as 1900..1999.
   */
  function Midnight(t: TimeValue): (r: TimeValue)
    ensures r.Valid? <==> t.Valid?
  {
    match t
    case NaN => NaN
    case Valid(ms) =>
      var c := CivilOfDay(Day(ms));
      Valid(NewDate(c.year, c.month, c.date))
  }

  /** `d.setDate(dt)` on a valid Date: same year, month and time of day, date `dt`. */
  function SetDate(t: int, dt: int): int {
    var c := CivilOfDay(Day(t));
    DayStart(MakeDay(c.year, c.month, dt)) + TimeWithinDay(t)
  }

  /** `getDate()` of a valid Date. */
  function DateOf(t: int): int {
    CivilOfDay(Day(t)).date
  }

  /** `getDay()` of a valid Date. */
  function DayOfWeek(t: int): int {
    WeekDay(Day(t))
  }

  /** For a year outside 0..99, `Midnight` truncates to the day's start. */
  lemma MidnightIsDayStart(t: int)
    requires OutsideEarlyYears(Day(t))
    ensures Midnight(Valid(t)) == Valid(DayStart(Day(t)))
  {
    OutsideEarlyYearsIff(Day(t));
    MakeDayOfCivil(Day(t));
  }

  /** `Midnight` of an instant on calendar date `c` is `new Date` of that date. */
  lemma MidnightOfCivil(t: int, c: Civil)
    requires ValidCivil(c)
    requires Day(t) == MakeDay(c.year, c.month, c.date)
    ensures Midnight(Valid(t)) == Valid(NewDate(c.year, c.month, c.date))
  {
    CivilOfMakeDay(c);
  }

  /** In years 0..99 `Midnight` lands 1900 years later, after the instant itself. */
  lemma MidnightOfEarlyYear(t: int)
    requires DayFromYear(0) <= Day(t) < DayFromYear(100)
    ensures Midnight(Valid(t)).ms > t
  {
    OutsideEarlyYearsIff(Day(t));
    var c := CivilOfDay(Day(t));
    assert 0 <= c.year <= 99 && FullYear(c.year) == c.year + 1900;
    assert Midnight(Valid(t)).ms == DayStart(MakeDay(c.year + 1900, c.month, c.date));
    EarlyDateLater(t, c);
  }

  /** The same date 1900 years on starts after any instant of year `c.year`. */
  lemma EarlyDateLater(t: int, c: Civil)
    requires ValidCivil(c) && Day(t) < DayFromYear(c.year + 1)
    ensures DayStart(MakeDay(c.year + 1900, c.month, c.date)) > t
  {
    DayFromYearMonotone(c.year + 1, c.year + 1900);
    MakeDayNotBeforeYear(Civil(c.year + 1900, c.month, c.date));
    DayBounds(t);
  }

  /** A date of year `y` with a month in 0..11 and a positive date lies in or after year `y`. */
  lemma MakeDayNotBeforeYear(c: Civil)
    requires 0 <= c.month < 12 && 1 <= c.date
    ensures DayFromYear(c.year) <= MakeDay(c.year, c.month, c.date)
  {
    MakeDayOfValid(c);
    if c.month > 0 {
      MonthStartMonotone(0, c.month, IsLeapYear(c.year));
    }
  }

  /** `setDate` moves a valid Date by whole days and keeps its time of day. */
  lemma SetDateShift(t: int, dt: int)
    ensures SetDate(t, dt) == t + DayStart(dt - DateOf(t))
  {
    var c := CivilOfDay(Day(t));
    MakeDayOfCivil(Day(t));
    MakeDayShift(c.year, c.month, c.date, dt - c.date);
    DayBounds(t);
  }
}

=== FILE: js_string.dfy ===
/**
 * The JavaScript string operations the forms and the date badge rely on:
 * the white-space class shared by `String.prototype.trim` and the regular
 * expression escape `\s`, `trim` itself, `length` (which counts UTF-16 code
 * units), the test of the pattern `\S+@\S+\.\S+`, and the decimal text of an
 * integer as a template literal prints it.
 */
module JsString {
  import opened Wrappers

  /** WhiteSpace and LineTerminator code points of ECMA-262 (sections 12.2 and 12.3). */
  predicate IsSpace(c: char) {
    || c == '\t' || c == '\U{000B}' || c == '\U{000C}' || c == ' '
    || c == '\U{00A0}' || c == '\U{FEFF}'
    || c == '\U{1680}' || ('\U{2000}' <= c <= '\U{200A}')
    || c == '\U{202F}' || c == '\U{205F}' || c == '\U{3000}'
    || c == '\n' || c == '\r' || c == '\U{2028}' || c == '\U{2029}'
  }

  predicate AllSpace(s: string) {
    forall k :: 0 <= k < |s| ==> IsSpace(s[k])
  }

  /** The number of leading white-space characters of `s`. */
  function LeadingSpace(s: string): (n: nat)
    ensures n <= |s|
    ensures AllSpace(s[..n])
    ensures n < |s| ==> !IsSpace(s[n])
  {
    if |s| == 0 || !IsSpace(s[0]) then 0
    else
      var n := 1 + LeadingSpace(s[1..]);
      assert forall k :: 1 <= k < n ==> s[..n][k] == s[1..][..n - 1][k - 1];
      n
  }

  /** The number of trailing white-space characters of `s`. */
  function TrailingSpace(s: string): (n: nat)
    ensures n <= |s|
    ensures forall k :: |s| - n <= k < |s| ==> IsSpace(s[k])
    ensures n < |s| ==> !IsSpace(s[|s| - n - 1])
  {
    if |s| == 0 || !IsSpace(s[|s| - 1]) then 0
    else
      var p := s[..|s| - 1];
      var m := TrailingSpace(p);
      assert forall k :: |s| - m - 1 <= k < |s| - 1 ==> s[k] == p[k];
      m + 1
  }

  /**
   * `s.trim()`: `s` without its leading and trailing white space.  The result
   * is a slice of `s` that neither starts nor ends with white space, and what
   * was cut off on either side is white space.
   */
  function Trim(s: string): (r: string)
    ensures exists i, j ::
      0 <= i <= j <= |s| && r == s[i..j] && AllSpace(s[..i]) && AllSpace(s[j..])
    ensures |r| > 0 ==> !IsSpace(r[0]) && !IsSpace(r[|r| - 1])
  {
    var i := LeadingSpace(s);
    if i == |s| then
      assert s == s[..i] && s[i..i] == [] && s[i..] == [];
      ""
    else
      var j := |s| - TrailingSpace(s);
      assert i < j;
      assert forall k :: 0 <= k < |s| - j ==> s[j..][k] == s[j + k];
      s[i..j]
  }

  /** `!s.trim()`: the trimmed string is empty, the falsy string. */
  predicate IsBlank(s: string) {
    Trim(s) == ""
  }

  /** A string is blank exactly when every character in it is white space. */
  lemma BlankIffAllSpace(s: string)
    ensures IsBlank(s) <==> AllSpace(s)
  {
    var r := Trim(s);
    var i, j :| 0 <= i <= j <= |s| && r == s[i..j] && AllSpace(s[..i]) && AllSpace(s[j..]);
    if r == "" {
      forall k | 0 <= k < |s|
        ensures IsSpace(s[k])
      {
        if k < i { assert s[k] == s[..i][k]; } else { assert s[k] == s[j..][k - j]; }
      }
    } else {
      assert r[0] == s[i];
    }
  }

  // ---------------------------------------------------------------------------
  // Length

  /** A code point outside the Basic Multilingual Plane takes a surrogate pair. */
  function Utf16Units(c: char): (n: nat)
    ensures n == 1 || n == 2
  {
    if c as int > 0xFFFF then 2 else 1
  }

  /** `s.length`: the number of UTF-16 code units of `s`. */
  function Utf16Length(s: string): (n: nat)
    ensures |s| <= n <= 2 * |s|
    ensures n == 0 <==> s == ""
  {
    if |s| == 0 then 0 else Utf16Units(s[0]) + Utf16Length(s[1..])
  }

  /** Where every code point is in the Basic Multilingual Plane, length counts characters. */
  lemma {:induction false} Utf16LengthOfBmp(s: string)
    requires forall k :: 0 <= k < |s| ==> s[k] as int <= 0xFFFF
    ensures Utf16Length(s) == |s|
  {
    if |s| > 0 {
      Utf16LengthOfBmp(s[1..]);
    }
  }

  /** Where every code point lies above the Basic Multilingual Plane, each takes a surrogate pair. */
  lemma {:induction false} Utf16LengthOfAstral(s: string)
    requires forall k :: 0 <= k < |s| ==> s[k] as int > 0xFFFF
    ensures Utf16Length(s) == 2 * |s|
  {
    if |s| > 0 {
      Utf16LengthOfAstral(s[1..]);
    }
  }

  /** The code units of a concatenation are those of its parts. */
  lemma {:induction false} Utf16LengthAppend(s: string, t: string)
    ensures Utf16Length(s + t) == Utf16Length(s) + Utf16Length(t)
  {
    if |s| == 0 {
      assert s + t == t;
    } else {
      assert (s + t)[1..] == s[1..] + t;
      Utf16LengthAppend(s[1..], t);
    }
  }

  // ---------------------------------------------------------------------------
  // The e-mail pattern

  /**
   * `/\S+@\S+\.\S+/.test(s)`: the pattern is not anchored, so it matches when
   * somewhere in `s` an `@` preceded by a non-space character is followed by
   * a non-empty run of non-space characters and then a `.` followed by a
   * non-space character.  (`\S` also matches `@` and `.`.)
   */
  predicate LooksLikeEmail(s: string) {
    exists i, j :: 0 <= i < j < |s| && EmailAt(s, i, j)
  }

  /** A match of the pattern with its `@` at position `i` and its `.` at position `j`. */
  predicate EmailAt(s: string, i: int, j: int) {
    && 1 <= i && i + 1 < j && j + 1 < |s|
    && s[i] == '@' && s[j] == '.'
    && !IsSpace(s[i - 1]) && !IsSpace(s[j + 1])
    && NoSpaceBetween(s, i, j)
  }

  /** The characters strictly between positions `i` and `j` are not white space. */
  predicate NoSpaceBetween(s: string, i: int, j: int)
    requires 0 <= i < j <= |s|
  {
    forall k :: i < k < j ==> !IsSpace(s[k])
  }

  /** A string that matches the pattern is never blank. */
  lemma EmailIsNotBlank(s: string)
    requires LooksLikeEmail(s)
    ensures !IsBlank(s)
  {
    var i, j :| EmailAt(s, i, j);
    BlankIffAllSpace(s);
  }

  /**
   * The pattern matched position by position: the state records whether the
   * text read so far ends inside a match of `\S+@` (`at`), of `\S+@\S+`
   * (`run`), or of `\S+@\S+\.` (`dot`), the three prefixes a match can be in.
   */
  method MatchEmail(s: string) returns (found: bool)
    ensures found <==> LooksLikeEmail(s)
  {
    var at, run, dot := false, false, false;
    var n := 0;
    found := false;
    while n < |s| && !found
      invariant 0 <= n <= |s|
      invariant found ==> LooksLikeEmail(s)
      invariant !found ==> forall j :: 1 < j < n - 1 ==> !MatchEndsAt(s, j)
      invariant at <==> (n > 0 && AtEndsAt(s, n - 1))
      invariant run <==> RunEndsAt(s, n)
      invariant dot <==> (n > 0 && DotReached(s, n - 1))
      decreases |s| - n
    {
      var c := s[n];
      var sp := IsSpace(c);
      found := dot && !sp;
      if found {
        assert MatchEndsAt(s, n - 1);
        var i :| 0 <= i < n - 2 && AtEndsAt(s, i) && NoSpaceBetween(s, i, n - 1);
        assert EmailAt(s, i, n - 1);
      }
      var run' := (at || run) && !sp;
      dot := run && c == '.';
      at := c == '@' && n > 0 && !IsSpace(s[n - 1]);
      run := run';
      n := n + 1;
    }
    if !found {
      forall i, j
        ensures !EmailAt(s, i, j)
      {
        if 1 <= i && i + 1 < j && j + 1 < |s| {
          assert !MatchEndsAt(s, j);
        }
      }
    }
  }

  /** Position `i` holds an `@` with a non-space character before it. */
  predicate AtEndsAt(s: string, i: int)
    requires 0 <= i < |s|
  {
    s[i] == '@' && i > 0 && !IsSpace(s[i - 1])
  }

  /** Some `\S+@` ends before `n - 1` and all after it up to `n` is non-space. */
  predicate RunEndsAt(s: string, n: int)
    requires 0 <= n <= |s|
  {
    exists i :: 0 <= i < n - 1 && AtEndsAt(s, i) && NoSpaceBetween(s, i, n)
  }

  /** Position `j` holds the `.` of a `\S+@\S+\.` prefix. */
  predicate DotReached(s: string, j: int)
    requires 0 <= j < |s|
  {
    s[j] == '.' && RunEndsAt(s, j)
  }

  /** A whole match whose `.` is at position `j`. */
  predicate MatchEndsAt(s: string, j: int)
    requires 0 <= j < |s| - 1
  {
    DotReached(s, j) && !IsSpace(s[j + 1])
  }

  // ---------------------------------------------------------------------------
  // Integers as text

  /** The decimal digit character of `d`. */
  function DigitChar(d: int): (c: char)
    requires 0 <= d < 10
    ensures '0' <= c <= '9'
    ensures (c as int) - ('0' as int) == d
  {
    (('0' as int) + d) as char
  }

  predicate AllDigits(s: string) {
    forall k :: 0 <= k < |s| ==> '0' <= s[k] <= '9'
  }

  /** The decimal digits of a natural number, without leading zeros. */
  function NatToString(n: nat): (s: string)
    ensures |s| >= 1
    ensures AllDigits(s)
    ensures |s| > 1 ==> s[0] != '0'
  {
    if n < 10 then [DigitChar(n)] else NatToString(n / 10) + [DigitChar(n % 10)]
  }

  /** `${n}` for an integer `n`: a minus sign before the digits of a negative number. */
  function IntToString(n: int): (s: string)
    ensures |s| >= 1
    ensures n < 0 <==> s[0] == '-'
  {
    if n < 0 then "-" + NatToString(-n) else NatToString(n)
  }

  /** The value of a string of decimal digits. */
  function DigitsValue(s: string): (n: nat)
    requires AllDigits(s)
  {
    if |s| == 0 then 0
    else DigitsValue(s[..|s| - 1]) * 10 + ((s[|s| - 1] as int) - ('0' as int))
  }

  /** Reading a signed decimal numeral. */
  function ParseInt(s: string): Option<int> {
    if |s| > 0 && s[0] == '-' then
      if 1 < |s| && AllDigits(s[1..]) then Some(0 - DigitsValue(s[1..]) as int) else None
    else if 0 < |s| && AllDigits(s) then Some(DigitsValue(s))
    else None
  }

  lemma {:induction false} DigitsOfNat(n: nat)
    ensures DigitsValue(NatToString(n)) == n
  {
    if n >= 10 {
      DigitsOfNat(n / 10);
      var s := NatToString(n);
      var p := NatToString(n / 10);
      assert s == p + [DigitChar(n % 10)];
      assert s[..|s| - 1] == p;
      assert DigitsValue(s) == DigitsValue(p) * 10 + n % 10;
    }
  }

  /** Reading back the text of an integer gives the integer. */
  lemma IntToStringRoundTrip(n: int)
    ensures ParseInt(IntToString(n)) == Some(n)
  {
    if n < 0 {
      var d := NatToString(-n);
      assert IntToString(n) == "-" + d;
      DigitsOfNat(-n);
      ParseNegativeDigits(d);
      assert 0 - DigitsValue(d) == n;
    } else {
      var d := NatToString(n);
      assert IntToString(n) == d;
      DigitsOfNat(n);
      ParseDigits(d);
    }
  }

  lemma ParseDigits(d: string)
    requires |d| >= 1 && AllDigits(d)
    ensures ParseInt(d) == Some(DigitsValue(d))
  {
    assert d[0] != '-';
  }

  lemma ParseNegativeDigits(d: string)
    requires |d| >= 1 && AllDigits(d)
    ensures ParseInt("-" + d) == Some(0 - DigitsValue(d))
  {
    assert ("-" + d)[1..] == d;
  }
}

=== FILE: login_form.dfy ===
/**
 * The login screen (app/login.tsx): the two fields, the checks
 * `validateForm` runs (no e-mail format check, since a username is accepted
 * too), `updateField`, and the guard at the top of `handleLogin`.
 */
module LoginForm {
  import opened Wrappers
  import opened JsString
  import opened FormErrors

  datatype Field = Email | Password

  /** The form: `email` holds an e-mail address or a username. */
  datatype LoginData = LoginData(email: string, password: string)

  const EmptyForm: LoginData := LoginData("", "")

  const IdentifierRequired: string := "Email ou username requis"
  const PasswordRequired: string := "Mot de passe requis"

  /** `formData[field]`. */
  function Get(d: LoginData, f: Field): string {
    match f
    case Email => d.email
    case Password => d.password
  }

  /** `{ ...prev, [field]: value }`: only `f` changes. */
  function With(d: LoginData, f: Field, v: string): (r: LoginData)
    ensures Get(r, f) == v
    ensures forall g :: g != f ==> Get(r, g) == Get(d, g)
  {
    match f
    case Email => d.(email := v)
    case Password => d.(password := v)
  }

  /** The message `validateForm` records for field `f` holding `value`, if any. */
  function Check(f: Field, value: string): (m: Option<string>)
    ensures m.Some? ==> m.value != ""
  {
    match f
    case Email => if IsBlank(value) then Some(IdentifierRequired) else None
    case Password => if value == "" then Some(PasswordRequired) else None
  }

  /** `newErrors` as `validateForm` builds it from `{}`. */
  function ValidateForm(d: LoginData): (errors: map<Field, string>)
    ensures forall f :: f in errors <==> Check(f, Get(d, f)).Some?
    ensures forall f :: f in errors ==> Check(f, Get(d, f)) == Some(errors[f])
    ensures Truthy(errors)
  {
    var m1, m2 := Check(Email, d.email), Check(Password, d.password);
    var errors := Note(Note(map[], Email, m1), Password, m2);
    forall f
      ensures f in errors <==> Check(f, Get(d, f)).Some?
      ensures f in errors ==> Check(f, Get(d, f)) == Some(errors[f]) && errors[f] != ""
    {
      assert f == Email || f == Password;
    }
    errors
  }

  /**
   * What an acceptable login looks like: an identifier with some
   * non-space character and a non-empty password (spaces allowed).
   */
  predicate Acceptable(d: LoginData) {
    !AllSpace(d.email) && d.password != ""
  }

  /** `Object.keys(newErrors).length === 0` exactly on acceptable forms. */
  lemma ValidIffAcceptable(d: LoginData)
    ensures ValidateForm(d) == map[] <==> Acceptable(d)
  {
    BlankIffAllSpace(d.email);
    var errors := ValidateForm(d);
    if errors != map[] {
      var f :| f in errors;
    } else {
      assert Email !in errors && Password !in errors;
    }
  }

  /** The message of each field, read off the result. */
  lemma ValidateMessages(d: LoginData)
    ensures var errors := ValidateForm(d);
      && (Email in errors <==> AllSpace(d.email))
      && (Email in errors ==> errors[Email] == IdentifierRequired)
      && (Password in errors <==> d.password == "")
      && (Password in errors ==> errors[Password] == PasswordRequired)
  {
    BlankIffAllSpace(d.email);
  }

  /** The empty form gets both "required" messages. */
  lemma EmptyFormErrors()
    ensures ValidateForm(EmptyForm) == map[Email := IdentifierRequired, Password := PasswordRequired]
  {
  }

  /** Any non-blank identifier is accepted: a bare username and a malformed address alike. */
  lemma NoFormatCheck(d: LoginData)
    requires d.email == "admin" || d.email == "a@b"
    requires d.password == " "
    ensures ValidateForm(d) == map[]
  {
    ValidIffAcceptable(d);
    assert !IsSpace(d.email[0]);
  }

  /** A field's message depends on that field alone. */
  lemma ErrorsArePerField(d: LoginData, f: Field, v: string, g: Field)
    requires g != f
    ensures (g in ValidateForm(With(d, f, v))) == (g in ValidateForm(d))
    ensures g in ValidateForm(d) ==> ValidateForm(With(d, f, v))[g] == ValidateForm(d)[g]
  {
    assert Get(With(d, f, v), g) == Get(d, g);
  }

  // ---------------------------------------------------------------------------
  // The screen's state

  datatype Screen = Screen(form: LoginData, errors: map<Field, string>)

  /** `updateField(field, value)`: set the field and drop its (truthy) message. */
  function UpdateField(s: Screen, f: Field, v: string): (r: Screen)
    ensures Get(r.form, f) == v
    ensures forall g :: g != f ==> Get(r.form, g) == Get(s.form, g)
    ensures forall g :: g != f ==> (g in r.errors <==> g in s.errors)
    ensures forall g :: g != f && g in r.errors ==> r.errors[g] == s.errors[g]
    ensures Truthy(s.errors) ==> f !in r.errors && Truthy(r.errors)
  {
    Screen(With(s.form, f, v), ClearError(s.errors, f))
  }

  /** Typing the same value twice is typing it once. */
  lemma UpdateFieldIdempotent(s: Screen, f: Field, v: string)
    ensures UpdateField(UpdateField(s, f, v), f, v) == UpdateField(s, f, v)
  {
    ClearIdempotent(s.errors, f);
  }

  /** The credentials `apiService.login(email, password)` receives. */
  datatype Credentials = Credentials(identifier: string, password: string)

  datatype Submission = Submission(screen: Screen, request: Option<Credentials>)

  /**
   * `handleLogin` up to the network call: validate, show the messages, and
   * call `apiService.login` with the untrimmed fields only on a valid form.
   */
  function HandleLogin(s: Screen): (r: Submission)
    ensures r.screen.form == s.form
    ensures r.request.Some? <==> Acceptable(s.form)
    ensures r.request.Some? ==> r.request.value == Credentials(s.form.email, s.form.password) && r.screen.errors == map[]
    ensures r.request.None? ==> r.screen.errors != map[]
    ensures r.screen.errors == ValidateForm(s.form)
  {
    var errors := ValidateForm(s.form);
    ValidIffAcceptable(s.form);
    Submission(Screen(s.form, errors), if errors == map[] then Some(Credentials(s.form.email, s.form.password)) else None)
  }
}

=== FILE: register_form.dfy ===
/**
 * The registration screen (app/register.tsx): the form's four fields, the
 * checks `validateForm` runs before anything is sent, `updateField`, and the
 * guard at the top of `handleRegister`.
 */
module RegisterForm {
  import opened Wrappers
  import opened JsString
  import opened FormErrors

  datatype Field = Username | Email | Password | Name

  /** The form data sent to the register endpoint. */
  datatype RegisterData = RegisterData(username: string, email: string, password: string, name: string)

  /** The form as the screen first shows it. */
  const EmptyForm: RegisterData := RegisterData("", "", "", "")

  const UsernameRequired: string := "Nom d'utilisateur requis"
  const NameRequired: string := "Nom complet requis"
  const EmailRequired: string := "Email requis"
  const EmailInvalid: string := "Email invalide"
  const PasswordRequired: string := "Mot de passe requis"
  const PasswordTooShort: string := "Le mot de passe doit contenir au moins 6 caractères"

  /** The shortest password accepted, in UTF-16 code units. */
  const MinPasswordLength: nat := 6

  /** `formData[field]`. */
  function Get(d: RegisterData, f: Field): string {
    match f
    case Username => d.username
    case Email => d.email
    case Password => d.password
    case Name => d.name
  }

  /** `{ ...prev, [field]: value }`: only `f` changes. */
  function With(d: RegisterData, f: Field, v: string): (r: RegisterData)
    ensures Get(r, f) == v
    ensures forall g :: g != f ==> Get(r, g) == Get(d, g)
  {
    match f
    case Username => d.(username := v)
    case Email => d.(email := v)
    case Password => d.(password := v)
    case Name => d.(name := v)
  }

  // ---------------------------------------------------------------------------
  // validateForm

  /** The message `validateForm` records for field `f` holding `value`, if any. */
  function Check(f: Field, value: string): Option<string> {
    match f
    case Username => if IsBlank(value) then Some(UsernameRequired) else None
    case Name => if IsBlank(value) then Some(NameRequired) else None
    case Email =>
      if IsBlank(value) then Some(EmailRequired)
      else if !LooksLikeEmail(value) then Some(EmailInvalid)
      else None
    case Password =>
      if value == "" then Some(PasswordRequired)
      else if Utf16Length(value) < MinPasswordLength then Some(PasswordTooShort)
      else None
  }

  /** The message of field `f` of the form `d`, if any. */
  function FieldError(d: RegisterData, f: Field): Option<string> {
    Check(f, Get(d, f))
  }

  /**
   * `newErrors` as `validateForm` builds it, one `if` after the other,
   * starting from `{}`.  Each field carries its own check's message and
   * nothing else.
   */
  function ValidateForm(d: RegisterData): (errors: map<Field, string>)
    ensures forall f :: f in errors <==> FieldError(d, f).Some?
    ensures forall f :: f in errors ==> FieldError(d, f) == Some(errors[f])
    ensures Truthy(errors)
  {
    var m1, m2, m3, m4 := FieldError(d, Username), FieldError(d, Name), FieldError(d, Email), FieldError(d, Password);
    var errors := Note(Note(Note(Note(map[], Username, m1), Name, m2), Email, m3), Password, m4);
    NotesCover(m1, m2, m3, m4);
    FieldsCovered(d, errors);
    errors
  }

  lemma FieldsCovered(d: RegisterData, errors: map<Field, string>)
    requires (Username in errors <==> FieldError(d, Username).Some?) && (Username in errors ==> FieldError(d, Username) == Some(errors[Username]))
    requires (Name in errors <==> FieldError(d, Name).Some?) && (Name in errors ==> FieldError(d, Name) == Some(errors[Name]))
    requires (Email in errors <==> FieldError(d, Email).Some?) && (Email in errors ==> FieldError(d, Email) == Some(errors[Email]))
    requires (Password in errors <==> FieldError(d, Password).Some?) && (Password in errors ==> FieldError(d, Password) == Some(errors[Password]))
    ensures forall f :: f in errors <==> FieldError(d, f).Some?
    ensures forall f :: f in errors ==> FieldError(d, f) == Some(errors[f])
    ensures Truthy(errors)
  {
    forall f
      ensures f in errors <==> FieldError(d, f).Some?
      ensures f in errors ==> FieldError(d, f) == Some(errors[f]) && errors[f] != ""
    {
      match f
      case Username => CheckTruthy(Username, d.username);
      case Name => CheckTruthy(Name, d.name);
      case Email => CheckTruthy(Email, d.email);
      case Password => CheckTruthy(Password, d.password);
    }
  }

  /** Each message `Check` can produce is non-empty. */
  lemma CheckTruthy(f: Field, value: string)
    ensures Check(f, value).Some? ==> Check(f, value).value != ""
  {
  }

  /** Four notes, one per field, hold exactly the four messages given. */
  lemma NotesCover(m1: Option<string>, m2: Option<string>, m3: Option<string>, m4: Option<string>)
    ensures var errors := Note(Note(Note(Note(map[], Username, m1), Name, m2), Email, m3), Password, m4);
      && (Username in errors <==> m1.Some?) && (Username in errors ==> m1 == Some(errors[Username]))
      && (Name in errors <==> m2.Some?) && (Name in errors ==> m2 == Some(errors[Name]))
      && (Email in errors <==> m3.Some?) && (Email in errors ==> m3 == Some(errors[Email]))
      && (Password in errors <==> m4.Some?) && (Password in errors ==> m4 == Some(errors[Password]))
  {
  }

  /**
   * What an acceptable registration looks like, stated on the characters:
   * a username and a name with some non-space character, an e-mail address
   * matching the pattern, and a password of at least six code units (spaces
   * count).
   */
  predicate Acceptable(d: RegisterData) {
    && !AllSpace(d.username)
    && !AllSpace(d.name)
    && LooksLikeEmail(d.email)
    && Utf16Length(d.password) >= MinPasswordLength
  }

  /** `Object.keys(newErrors).length === 0` exactly on acceptable forms. */
  lemma ValidIffAcceptable(d: RegisterData)
    ensures ValidateForm(d) == map[] <==> Acceptable(d)
  {
    FieldAccepted(d, Username);
    FieldAccepted(d, Name);
    FieldAccepted(d, Email);
    FieldAccepted(d, Password);
    var errors := ValidateForm(d);
    EmptyIffNoField(errors);
  }

  /** Each field's check passes exactly when its part of `Acceptable` holds. */
  lemma FieldAccepted(d: RegisterData, f: Field)
    ensures f == Username ==> (FieldError(d, f).None? <==> !AllSpace(d.username))
    ensures f == Name ==> (FieldError(d, f).None? <==> !AllSpace(d.name))
    ensures f == Email ==> (FieldError(d, f).None? <==> LooksLikeEmail(d.email))
    ensures f == Password ==> (FieldError(d, f).None? <==> Utf16Length(d.password) >= MinPasswordLength)
  {
    match f
    case Username => BlankIffAllSpace(d.username);
    case Name => BlankIffAllSpace(d.name);
    case Email =>
      if LooksLikeEmail(d.email) {
        EmailIsNotBlank(d.email);
      }
    case Password =>
  }

  /** An error record is empty exactly when none of the four fields has a message. */
  lemma EmptyIffNoField(errors: map<Field, string>)
    ensures errors == map[] <==> Username !in errors && Name !in errors && Email !in errors && Password !in errors
  {
    if Username !in errors && Name !in errors && Email !in errors && Password !in errors {
      forall k: Field
        ensures k !in errors
      {
        match k
        case Username =>
        case Name =>
        case Email =>
        case Password =>
      }
      assert errors.Keys == {};
    }
  }

  /** The message of each field, read off the result. */
  lemma ValidateMessages(d: RegisterData)
    ensures var errors := ValidateForm(d);
      && (Username in errors <==> AllSpace(d.username))
      && (Username in errors ==> errors[Username] == UsernameRequired)
      && (Name in errors <==> AllSpace(d.name))
      && (Name in errors ==> errors[Name] == NameRequired)
      && (Email in errors <==> !LooksLikeEmail(d.email))
      && (Email in errors ==> errors[Email] == (if AllSpace(d.email) then EmailRequired else EmailInvalid))
      && (Password in errors <==> Utf16Length(d.password) < MinPasswordLength)
      && (Password in errors ==> errors[Password] == (if d.password == "" then PasswordRequired else PasswordTooShort))
  {
    UsernameMessage(d);
    NameMessage(d);
    EmailMessage(d);
    PasswordMessage(d);
  }

  /** The message of one field each; `ValidateMessages` gathers them. */
  lemma UsernameMessage(d: RegisterData)
    ensures var errors := ValidateForm(d);
      && (Username in errors <==> AllSpace(d.username))
      && (Username in errors ==> errors[Username] == UsernameRequired)
  {
    FieldAccepted(d, Username);
  }

  lemma NameMessage(d: RegisterData)
    ensures var errors := ValidateForm(d);
      && (Name in errors <==> AllSpace(d.name))
      && (Name in errors ==> errors[Name] == NameRequired)
  {
    FieldAccepted(d, Name);
  }

  lemma EmailMessage(d: RegisterData)
    ensures var errors := ValidateForm(d);
      && (Email in errors <==> !LooksLikeEmail(d.email))
      && (Email in errors ==> errors[Email] == (if AllSpace(d.email) then EmailRequired else EmailInvalid))
  {
    FieldAccepted(d, Email);
    BlankIffAllSpace(d.email);
  }

  lemma PasswordMessage(d: RegisterData)
    ensures var errors := ValidateForm(d);
      && (Password in errors <==> Utf16Length(d.password) < MinPasswordLength)
      && (Password in errors ==> errors[Password] == (if d.password == "" then PasswordRequired else PasswordTooShort))
  {
    FieldAccepted(d, Password);
  }

  /** A field's message depends on that field alone. */
  lemma ErrorsArePerField(d: RegisterData, f: Field, v: string, g: Field)
    requires g != f
    ensures (g in ValidateForm(With(d, f, v))) == (g in ValidateForm(d))
    ensures g in ValidateForm(d) ==> ValidateForm(With(d, f, v))[g] == ValidateForm(d)[g]
  {
    assert FieldError(With(d, f, v), g) == FieldError(d, g);
  }

  /** The password is not trimmed: six spaces make a long enough password. */
  lemma SixSpacesPassword(d: RegisterData)
    requires d.password == "      "
    ensures Password !in ValidateForm(d)
  {
  }

  /**
   * `length` counts code units, not characters: three emoji outside the Basic
   * Multilingual Plane make a long enough password, two do not.
   */
  lemma EmojiPasswords(d: RegisterData)
    ensures d.password == "\U{1F600}\U{1F600}\U{1F600}" ==> Password !in ValidateForm(d)
    ensures d.password == "\U{1F600}\U{1F600}" ==> ValidateForm(d)[Password] == PasswordTooShort
  {
    Utf16LengthOfAstral("\U{1F600}\U{1F600}\U{1F600}");
    Utf16LengthOfAstral("\U{1F600}\U{1F600}");
  }

  /** The empty form gets the four "required" messages. */
  lemma EmptyFormErrors()
    ensures ValidateForm(EmptyForm)
         == map[Username := UsernameRequired, Name := NameRequired, Email := EmailRequired, Password := PasswordRequired]
  {
  }

  /**
   * The pattern is not anchored and the address is not trimmed: spaces
   * around an address pass, a missing dot does not.
   */
  lemma EmailPatternExamples()
    ensures LooksLikeEmail("a@b.co")
    ensures LooksLikeEmail(" a@b.co ")
    ensures !LooksLikeEmail("a@b")
    ensures !LooksLikeEmail("a@.co")
  {
    assert EmailAt("a@b.co", 1, 3);
    assert EmailAt(" a@b.co ", 2, 4);
  }

  /** The e-mail check of `validateForm`, testing the pattern with the matcher. */
  method CheckEmail(value: string) returns (m: Option<string>)
    ensures m.None? <==> LooksLikeEmail(value)
    ensures m == Check(Email, value)
  {
    if IsBlank(value) {
      m := Some(EmailRequired);
      if LooksLikeEmail(value) {
        EmailIsNotBlank(value);
      }
    } else {
      var matches := MatchEmail(value);
      m := if matches then None else Some(EmailInvalid);
    }
  }

  /** `validateForm` with the pattern decided by the matcher; it returns whether the form is valid. */
  method Validate(d: RegisterData) returns (valid: bool, errors: map<Field, string>)
    ensures valid <==> Acceptable(d)
    ensures valid <==> errors == map[]
    ensures forall f :: f in errors ==> FieldError(d, f) == Some(errors[f])
    ensures errors == ValidateForm(d)
  {
    var emailError := CheckEmail(d.email);
    errors := Note(map[], Username, FieldError(d, Username));
    errors := Note(errors, Name, FieldError(d, Name));
    errors := Note(errors, Email, emailError);
    errors := Note(errors, Password, FieldError(d, Password));
    assert errors == ValidateForm(d);
    valid := |errors| == 0;
    ValidIffAcceptable(d);
  }

  // ---------------------------------------------------------------------------
  // The screen's state

  datatype Screen = Screen(form: RegisterData, errors: map<Field, string>)

  const InitialScreen: Screen := Screen(EmptyForm, map[])

  /** `updateField(field, value)`: set the field and drop its (truthy) message. */
  function UpdateField(s: Screen, f: Field, v: string): (r: Screen)
    ensures Get(r.form, f) == v
    ensures forall g :: g != f ==> Get(r.form, g) == Get(s.form, g)
    ensures forall g :: g != f ==> (g in r.errors <==> g in s.errors)
    ensures forall g :: g != f && g in r.errors ==> r.errors[g] == s.errors[g]
    ensures Truthy(s.errors) ==> f !in r.errors && Truthy(r.errors)
  {
    Screen(With(s.form, f, v), ClearError(s.errors, f))
  }

  /** Typing the same value twice is typing it once. */
  lemma UpdateFieldIdempotent(s: Screen, f: Field, v: string)
    ensures UpdateField(UpdateField(s, f, v), f, v) == UpdateField(s, f, v)
  {
    ClearIdempotent(s.errors, f);
  }

  /** The outcome of pressing the button: the new screen and the request sent, if any. */
  datatype Submission = Submission(screen: Screen, request: Option<RegisterData>)

  /**
   * `handleRegister` up to the network call: validate, show the messages,
   * and call `apiService.register(formData)` only on a valid form.
   */
  function HandleRegister(s: Screen): (r: Submission)
    ensures r.screen.form == s.form
    ensures r.request.Some? <==> Acceptable(s.form)
    ensures r.request.Some? ==> r.request.value == s.form && r.screen.errors == map[]
    ensures r.request.None? ==> r.screen.errors != map[]
    ensures r.screen.errors == ValidateForm(s.form)
  {
    var errors := ValidateForm(s.form);
    ValidIffAcceptable(s.form);
    Submission(Screen(s.form, errors), if errors == map[] then Some(s.form) else None)
  }

  /** The screen's errors are truthy from the start and stay so. */
  lemma ScreenStaysTruthy(s: Screen, f: Field, v: string)
    requires Truthy(s.errors)
    ensures Truthy(UpdateField(s, f, v).errors)
    ensures Truthy(HandleRegister(s).screen.errors)
    ensures Truthy(InitialScreen.errors)
  {
  }
}

=== FILE: task_sort.dfy ===
/**
 * `sortTasksByDate` (utils/dateFilters.ts): a copy of the tasks sorted with
 * `Array.prototype.sort`, which is stable, under a comparator that puts the
 * overdue tasks first and orders by due instant otherwise.
 *
 * The comparator reads the clock on every call; the model reads it once,
 * so every comparison uses the same `today`.
 */
module TaskSort {
  import opened Wrappers
  import opened JsDate
  import opened CalendarAnchors
  import opened DateFilters

  /** Every task of `s` has a due date. */
  predicate AllDated(s: seq<Task>) {
    forall k :: 0 <= k < |s| ==> s[k].dueDate.Some?
  }

  /** What the comparator looks at: lateness first, then the due instant. */
  datatype SortKey = SortKey(late: bool, due: int)

  function KeyOf(t: Task, today: int): SortKey
    requires t.dueDate.Some?
  {
    SortKey(IsLate(t, today), t.dueDate.value)
  }

  /** The intended order on keys: late before not late, then earlier due first. */
  predicate KeyLe(x: SortKey, y: SortKey) {
    (x.late && !y.late) || (x.late == y.late && x.due <= y.due)
  }

  /** `a` may come before `b` in the sorted result. */
  predicate NotAfter(a: Task, b: Task, today: int)
    requires a.dueDate.Some? && b.dueDate.Some?
  {
    KeyLe(KeyOf(a, today), KeyOf(b, today))
  }

  /**
   * The comparator: -1 when only `a` is overdue, 1 when only `b` is, and
   * otherwise the difference of the due instants.
   */
  function Compare(a: Task, b: Task, today: int): (r: int)
    requires a.dueDate.Some? && b.dueDate.Some?
    ensures r <= 0 <==> NotAfter(a, b, today)
    ensures r == 0 <==> KeyOf(a, today) == KeyOf(b, today)
  {
    var aOverdue := IsLate(a, today);
    var bOverdue := IsLate(b, today);
    if aOverdue && !bOverdue then -1
    else if !aOverdue && bOverdue then 1
    else a.dueDate.value - b.dueDate.value
  }

  /**
   * The comparator is consistent in the sense `Array.prototype.sort` needs
   * (ECMA-262, section 23.1.3.30): swapping the arguments flips the sign,
   * and "not after" is transitive.
   */
  lemma CompareConsistent(a: Task, b: Task, c: Task, today: int)
    requires a.dueDate.Some? && b.dueDate.Some? && c.dueDate.Some?
    ensures Compare(a, b, today) == -Compare(b, a, today)
    ensures Compare(a, b, today) <= 0 && Compare(b, c, today) <= 0 ==> Compare(a, c, today) <= 0
  {
  }

  // ---------------------------------------------------------------------------
  // Sortedness and ties

  /** No task of `s` comes after a later one. */
  predicate Sorted(s: seq<Task>, today: int)
    requires AllDated(s)
  {
    forall i, j :: 0 <= i < j < |s| ==> NotAfter(s[i], s[j], today)
  }

  /** The tasks of `s` whose key is `k`, in the order of `s`. */
  function Ties(s: seq<Task>, k: SortKey, today: int): seq<Task>
    requires AllDated(s)
  {
    if |s| == 0 then []
    else if KeyOf(s[0], today) == k then [s[0]] + Ties(s[1..], k, today)
    else Ties(s[1..], k, today)
  }

  lemma TiesCons(x: Task, s: seq<Task>, k: SortKey, today: int)
    requires x.dueDate.Some? && AllDated(s)
    ensures AllDated([x] + s)
    ensures Ties([x] + s, k, today)
         == (if KeyOf(x, today) == k then [x] else []) + Ties(s, k, today)
  {
    assert ([x] + s)[1..] == s;
  }

  // ---------------------------------------------------------------------------
  // The stable sort

  /** Insert `x` before the first task it does not come after. */
  function Insert(x: Task, s: seq<Task>, today: int): (r: seq<Task>)
    requires x.dueDate.Some? && AllDated(s)
    ensures multiset(r) == multiset(s) + multiset{x}
    ensures AllDated(r)
  {
    if |s| == 0 then [x]
    else if Compare(x, s[0], today) <= 0 then [x] + s
    else
      assert s == [s[0]] + s[1..];
      [s[0]] + Insert(x, s[1..], today)
  }

  /** Inserting into a sorted sequence keeps it sorted. */
  lemma {:induction false} InsertSorted(x: Task, s: seq<Task>, today: int)
    requires x.dueDate.Some? && AllDated(s) && Sorted(s, today)
    ensures Sorted(Insert(x, s, today), today)
  {
    if |s| > 0 && Compare(x, s[0], today) > 0 {
      var rest := Insert(x, s[1..], today);
      InsertSorted(x, s[1..], today);
      forall k | 0 <= k < |rest|
        ensures NotAfter(s[0], rest[k], today)
      {
        var y := rest[k];
        assert y in multiset(rest);
        if y != x {
          assert y in multiset(s[1..]);
          var m :| 0 <= m < |s[1..]| && s[1..][m] == y;
          assert s[m + 1] == y;
        }
      }
      ConsSorted(s[0], rest, today);
    }
  }

  /** A task not after any task of a sorted sequence can go in front of it. */
  lemma ConsSorted(h: Task, rest: seq<Task>, today: int)
    requires h.dueDate.Some? && AllDated(rest) && Sorted(rest, today)
    requires forall k :: 0 <= k < |rest| ==> NotAfter(h, rest[k], today)
    ensures AllDated([h] + rest) && Sorted([h] + rest, today)
  {
    var r := [h] + rest;
    forall i, j | 0 <= i < j < |r|
      ensures NotAfter(r[i], r[j], today)
    {
      assert r[j] == rest[j - 1];
      if i > 0 {
        assert r[i] == rest[i - 1];
      }
    }
  }

  /** Inserting `x` keeps the order of every group of ties and puts `x` after nothing it ties with. */
  lemma {:induction false} InsertTies(x: Task, s: seq<Task>, k: SortKey, today: int)
    requires x.dueDate.Some? && AllDated(s)
    ensures AllDated([x] + s)
    ensures Ties(Insert(x, s, today), k, today) == Ties([x] + s, k, today)
  {
    TiesCons(x, s, k, today);
    if |s| > 0 && Compare(x, s[0], today) > 0 {
      var rest := Insert(x, s[1..], today);
      InsertTies(x, s[1..], k, today);
      TiesCons(s[0], rest, k, today);
      TiesCons(x, s[1..], k, today);
      TiesCons(s[0], s[1..], k, today);
      assert s == [s[0]] + s[1..];
    }
  }

  /** Array.prototype.sort with `Compare`, stable: insertion sort from the back. */
  function SortBy(s: seq<Task>, today: int): (r: seq<Task>)
    requires AllDated(s)
    ensures AllDated(r)
    ensures multiset(r) == multiset(s)
    ensures Sorted(r, today)
  {
    if |s| == 0 then []
    else
      DatedTail(s);
      var rest := SortBy(s[1..], today);
      InsertStep(s, rest, today);
      Insert(s[0], rest, today)
  }

  lemma DatedTail(s: seq<Task>)
    requires AllDated(s) && |s| > 0
    ensures s[0].dueDate.Some? && AllDated(s[1..])
  {
    forall k | 0 <= k < |s| - 1
      ensures s[1..][k].dueDate.Some?
    {
      assert s[1..][k] == s[k + 1];
    }
  }

  /** Inserting the head of `s` into a sorted arrangement of its tail sorts `s`. */
  lemma InsertStep(s: seq<Task>, rest: seq<Task>, today: int)
    requires |s| > 0 && AllDated(s) && AllDated(rest)
    requires multiset(rest) == multiset(s[1..]) && Sorted(rest, today)
    ensures AllDated(Insert(s[0], rest, today))
    ensures multiset(Insert(s[0], rest, today)) == multiset(s)
    ensures Sorted(Insert(s[0], rest, today), today)
  {
    InsertSorted(s[0], rest, today);
    assert s == [s[0]] + s[1..];
  }

  /** `sortTasksByDate(tasks)` when the clock reads `now`. */
  function SortTasksByDate(tasks: seq<Task>, now: int): (r: seq<Task>)
    requires AllDated(tasks)
    ensures AllDated(r)
    ensures multiset(r) == multiset(tasks)
    ensures Sorted(r, TodayAt(now))
  {
    SortBy(tasks, TodayAt(now))
  }

  // ---------------------------------------------------------------------------
  // Properties

  /** Tasks that compare equal keep their input order: the sort is stable. */
  lemma {:induction false} SortStable(s: seq<Task>, k: SortKey, today: int)
    requires AllDated(s)
    ensures Ties(SortBy(s, today), k, today) == Ties(s, k, today)
  {
    if |s| > 0 {
      var rest := SortBy(s[1..], today);
      SortStable(s[1..], k, today);
      InsertTies(s[0], rest, k, today);
      TiesCons(s[0], rest, k, today);
      TiesCons(s[0], s[1..], k, today);
      assert s == [s[0]] + s[1..];
    }
  }

  /** Every overdue task comes before every task that is not overdue. */
  lemma OverdueFirst(tasks: seq<Task>, now: int, i: int, j: int)
    requires AllDated(tasks)
    requires var r := SortTasksByDate(tasks, now); 0 <= i < |r| && 0 <= j < |r|
    requires var r := SortTasksByDate(tasks, now);
      IsLate(r[i], TodayAt(now)) && !IsLate(r[j], TodayAt(now))
    ensures i < j
  {
  }

  /** Within the overdue tasks, and within the others, due instants ascend. */
  lemma AscendingWithinGroup(tasks: seq<Task>, now: int, i: int, j: int)
    requires AllDated(tasks)
    requires var r := SortTasksByDate(tasks, now); 0 <= i < j < |r|
    requires var r := SortTasksByDate(tasks, now);
      IsLate(r[i], TodayAt(now)) == IsLate(r[j], TodayAt(now))
    ensures var r := SortTasksByDate(tasks, now);
      r[i].dueDate.value <= r[j].dueDate.value
  {
    var r := SortTasksByDate(tasks, now);
    assert NotAfter(r[i], r[j], TodayAt(now));
  }

  /** The tail of a sorted sequence is sorted. */
  lemma SortedTail(s: seq<Task>, today: int)
    requires |s| > 0 && AllDated(s) && Sorted(s, today)
    ensures AllDated(s[1..]) && Sorted(s[1..], today)
  {
    forall i, j | 0 <= i < j < |s[1..]|
      ensures NotAfter(s[1..][i], s[1..][j], today)
    {
      assert s[1..][i] == s[i + 1] && s[1..][j] == s[j + 1];
    }
  }

  /** A task that comes after none of a sorted sequence is inserted at its front. */
  lemma InsertAtFront(x: Task, s: seq<Task>, today: int)
    requires x.dueDate.Some? && AllDated(s)
    requires |s| > 0 ==> NotAfter(x, s[0], today)
    ensures Insert(x, s, today) == [x] + s
  {
  }

  /** A sorted sequence is its own sort. */
  lemma {:induction false} SortOfSorted(s: seq<Task>, today: int)
    requires AllDated(s) && Sorted(s, today)
    ensures SortBy(s, today) == s
  {
    if |s| > 0 {
      SortedTail(s, today);
      SortOfSorted(s[1..], today);
      if |s| > 1 {
        assert NotAfter(s[0], s[1], today);
      }
      InsertAtFront(s[0], s[1..], today);
      assert s == [s[0]] + s[1..];
    }
  }

  /** Sorting twice gives the same result as sorting once. */
  lemma SortIdempotent(tasks: seq<Task>, now: int)
    requires AllDated(tasks)
    ensures SortTasksByDate(SortTasksByDate(tasks, now), now) == SortTasksByDate(tasks, now)
  {
    SortOfSorted(SortTasksByDate(tasks, now), TodayAt(now));
  }

  // ---------------------------------------------------------------------------
  // The result is the only sorted arrangement that keeps ties in input order

  /** The tasks of `Ties(s, k)` are tasks of `s` with key `k`, and every such task is there. */
  lemma {:induction false} TiesMembers(s: seq<Task>, k: SortKey, today: int)
    requires AllDated(s)
    ensures forall y :: y in Ties(s, k, today) ==> y in s && y.dueDate.Some? && KeyOf(y, today) == k
    ensures forall i :: 0 <= i < |s| && KeyOf(s[i], today) == k ==> s[i] in Ties(s, k, today)
  {
    if |s| > 0 {
      TiesMembers(s[1..], k, today);
      forall i | 0 < i < |s| && KeyOf(s[i], today) == k
        ensures s[i] in Ties(s, k, today)
      {
        assert s[i] == s[1..][i - 1];
      }
    }
  }

  /** Two sorted sequences whose groups of ties agree are equal. */
  lemma {:induction false} SortedTiesDetermine(r: seq<Task>, q: seq<Task>, today: int)
    requires AllDated(r) && AllDated(q) && Sorted(r, today) && Sorted(q, today)
    requires forall k :: Ties(r, k, today) == Ties(q, k, today)
    ensures r == q
  {
    if |r| == 0 && |q| > 0 {
      TiesMembers(q, KeyOf(q[0], today), today);
    } else if |q| == 0 && |r| > 0 {
      TiesMembers(r, KeyOf(r[0], today), today);
    } else if |r| > 0 {
      var k, k' := KeyOf(r[0], today), KeyOf(q[0], today);
      FirstKeyIsLeast(r, q, today);
      FirstKeyIsLeast(q, r, today);
      assert k == k';
      assert r == [r[0]] + r[1..] && q == [q[0]] + q[1..];
      TiesCons(r[0], r[1..], k, today);
      TiesCons(q[0], q[1..], k, today);
      assert Ties(r, k, today)[0] == r[0] && Ties(q, k, today)[0] == q[0];
      SortedTail(r, today);
      SortedTail(q, today);
      forall k2
        ensures Ties(r[1..], k2, today) == Ties(q[1..], k2, today)
      {
        TiesCons(r[0], r[1..], k2, today);
        TiesCons(q[0], q[1..], k2, today);
        assert Ties(r, k2, today) == Ties(q, k2, today);
        if k2 == k {
          assert Ties(r[1..], k2, today) == Ties(r, k2, today)[1..];
        }
      }
      SortedTiesDetermine(r[1..], q[1..], today);
      assert r == [r[0]] + r[1..] && q == [q[0]] + q[1..];
    }
  }

  /** The key of the head of a sorted `r` is at most the key of the head of `q`, when their ties agree. */
  lemma FirstKeyIsLeast(r: seq<Task>, q: seq<Task>, today: int)
    requires AllDated(r) && AllDated(q) && Sorted(r, today)
    requires |r| > 0 && |q| > 0
    requires forall k :: Ties(r, k, today) == Ties(q, k, today)
    ensures KeyLe(KeyOf(r[0], today), KeyOf(q[0], today))
  {
    var k' := KeyOf(q[0], today);
    TiesMembers(q, k', today);
    TiesMembers(r, k', today);
    assert q[0] in Ties(r, k', today);
    var i :| 0 <= i < |r| && r[i] == q[0];
    if i > 0 {
      assert NotAfter(r[0], r[i], today);
    }
  }

  /**
   * The sort's result is the one sorted arrangement of the input that keeps
   * every group of equal-comparing tasks in input order.
   */
  lemma SortIsUnique(s: seq<Task>, r: seq<Task>, today: int)
    requires AllDated(s) && AllDated(r) && Sorted(r, today)
    requires forall k :: Ties(r, k, today) == Ties(s, k, today)
    ensures r == SortBy(s, today)
  {
    forall k
      ensures Ties(r, k, today) == Ties(SortBy(s, today), k, today)
    {
      SortStable(s, k, today);
    }
    SortedTiesDetermine(r, SortBy(s, today), today);
  }
}

=== FILE: wrappers.dfy ===
/** Optional values, used for the fields a record may leave undefined. */
module Wrappers {

  datatype Option<+T> = None | Some(value: T)
}
